=== FILE: README.md ===
# BMEcat splitter, modelled in Dafny

The tdl-cli command-line tool splits a large BMEcat product catalogue (an
XML file of `<PRODUCT>` records inside `<T_NEW_CATALOG>`) into numbered
files `${prefix}-1.xml`, `${prefix}-2.xml`, … that each end with the footer
`</T_NEW_CATALOG>\n</BMECAT>`. The repository has three independent
splitters and one argument decoder. This project models all four as pure
functions over immutable state, and proves what each one does to the input.

- `RecordSplitter` covers todolux-splitter.js. It reads the whole text, cuts
  out the header (the common tags) and the products section, and extracts
  the products with the regular expression
  `/<PRODUCT(?:\s+mode="new")?>(.*?)<\/PRODUCT>/gs`. That expression is
  modelled as a leftmost, non-overlapping scanner. The products are trimmed
  and then packed greedily under `maxFileSize`; each file repeats the
  common tags.
- `HeaderReader` and `LineMachine` cover src/splitter.js. The header is
  everything up to and including the first `<T_NEW_CATALOG>` across the
  stream's chunks. The rest is read line by line by a small state machine
  with a fixed 90 MiB limit, which writes a file only when a line closing a
  product pushes the byte counter past the limit.
- `LinePacker` covers index.js. The input is split into lines, and lines
  are packed greedily into files. There is an oversized-line path, a
  one-time 30-byte margin for the first line that nearly fills a file, and
  an overflow branch that leaves the counter at twice the line's size.
- `Arguments` covers `parseCommandLineArguments` of src/arguments.js and the
  same loop inlined in index.js and todolux-splitter.js. It handles
  `--version`, `--help`, `--input=`, `--size=` (in MiB, through `parseInt`),
  `--output=` and the missing-input error.

Supporting modules model the parts of JavaScript the splitters rely on:
- `Wrappers`: `Option` and `Result`.
- `Utf8`: `Buffer.byteLength` as the width of UTF-8 encoding, per section 3
  of RFC 3629.
- `Text`: `indexOf`, `includes`, `startsWith`, `substring` and `trim` with
  ECMAScript's white-space set.
- `Numerals`: `${n}` rendering and `parseInt`.
- `Lines`: `split(/\r?\n/)`.
- `Catalog`: the markers, the footer, `path.basename`/`path.extname` and file
  names.

A read stream's chunks are an input sequence of strings, so any chunking of
a successful read is covered. The line loop of the two stream splitters is a fold over the lines
of every chunk, each chunk split on its own, exactly as the source does.

Where the behaviour described for the tool and the code disagree, the model
follows the code:
- todolux-splitter.js writes an empty first file when the first product
  alone exceeds the limit (`RecordSplitter.OversizedFirstProduct`).
- todolux-splitter.js has no notion of an unclosed record. A record with no
  `</PRODUCT>` after it in the section is dropped, because the regular
  expression does not match it. When a later record's closing tag follows,
  the lazy `.*?` runs on to that tag and the two records become one product
  (`RecordSplitter.UnclosedRecordMerges`).
- src/splitter.js lets a line with `<PRODUCT mode="new">` discard whatever
  product text is pending and not yet written (`LineMachine.OpenTagDiscards`).
- index.js packs lines, not records, so a record can straddle two files.
- src/arguments.js is an ES module that uses `colors` and `emojis` without
  importing them. Its usage text and its missing-input message therefore
  throw a ReferenceError instead of printing (`Arguments.ParseModule`). Only
  index.js and todolux-splitter.js, which define both objects, show the help
  or the error.

## Model

| member | source | states |
|---|---|---|
| Utf8.ByteLength | todolux-splitter.js:41 | the UTF-8 size of a string is between its length and four times its length |
| Utf8.ByteLengthIsEncodedLength | todolux-splitter.js:41 | the size used for packing is exactly the length of the string's UTF-8 encoding |
| Utf8.ByteLengthAppend | index.js:61 | byte size is additive over concatenation, so a line plus its newline counts one more byte |
| Utf8.AsciiByteLength | src/splitter.js:69 | for an ASCII text the byte size equals the character count (the header's `length` is used as a byte offset) |
| Text.IndexOfFrom | src/splitter.js:25 | the search returns the first occurrence at or after the start, and nothing exactly when there is none |
| Text.JsIndexOf | todolux-splitter.js:22-23 | `indexOf` is -1 exactly when the pattern occurs nowhere, and otherwise the first occurrence |
| Text.ContainsIff | src/splitter.js:100 | `includes` holds exactly when the pattern occurs somewhere |
| Text.IndexOfAppend | src/splitter.js:22-25 | once the accumulated header text holds the marker, more text does not move its first occurrence |
| Text.SubstringSlice | todolux-splitter.js:24-25 | `substring` on in-range arguments is the slice, in either argument order |
| Text.TrimStart | todolux-splitter.js:39 | the result is a suffix; everything removed is white space and the result does not start with white space |
| Text.TrimEnd | todolux-splitter.js:39 | the result is a prefix; everything removed is white space and the result does not end with white space |
| Text.TrimUnchanged | todolux-splitter.js:39 | trimming a text with no white space at either end leaves it unchanged |
| Numerals.Decimal | todolux-splitter.js:43 | `${fileIndex}` is a non-empty digit string with no leading zero |
| Numerals.DecimalRoundTrip | todolux-splitter.js:43 | reading the rendered digits back gives the number |
| Numerals.DecimalInjective | index.js:47 | distinct file indices render differently |
| Numerals.DigitRun | src/arguments.js:44 | the digit run is the longest prefix of digits of the radix |
| Numerals.ParseInt | src/arguments.js:44 | `parseInt` with no radix; what it returns is stated by `DigitRun`, `ParseIntDecimal`, `ParseIntNegative`, `ParseIntNaN` and `ZeroXIsNaN` |
| Numerals.ParseIntDecimal | src/arguments.js:44 | `parseInt` of a rendered number followed by a non-digit tail is that number; only after `0` must the tail not start with `x` or `X` |
| Numerals.ParseIntNegative | src/arguments.js:44 | a leading minus before a rendered number and a non-digit tail gives the negated number, with the same `0x` exception |
| Numerals.ParseIntNaN | src/arguments.js:44-45 | text with no decimal digit is NaN, so the size is not changed |
| Numerals.ZeroXIsNaN | src/arguments.js:44-45 | after a lone `0`, an `x` selects radix 16, so `0x` with no hex digit after it is NaN |
| Lines.SplitLines | index.js:58 | splitting gives at least one line and no line holds a newline |
| Lines.JoinSplitLines | index.js:58 | joining the lines with newlines gives the input with each CRLF turned into LF |
| Lines.SplitJoinLines | src/splitter.js:97 | lines without newlines, none but the last ending in CR, are recovered by splitting their join |
| Lines.LinesOfChunks | index.js:57-60 | the lines of all chunks contain no newline, and each chunk gives at least one line |
| Catalog.FileNameInjective | index.js:47 | `${prefix}-${index}.xml` names differ for different indices |
| Catalog.NumberedNamesDistinct | todolux-splitter.js:43-47 | files numbered 1, 2, … under one prefix never share a name |
| Catalog.BaseName | todolux-splitter.js:35 | the base name is the longest suffix of the path holding no `/`: it is the whole path or follows a `/` |
| Catalog.ExtName | todolux-splitter.js:35 | the extension is empty exactly when no `.` follows the name's first character; otherwise it is the suffix from the last `.` |
| Catalog.Stem | todolux-splitter.js:35 | the stem followed by the extension is the base name, and holds no `/` |
| Catalog.NamePrefix | todolux-splitter.js:35-36 | a non-empty output name is the prefix; otherwise the prefix ends with `-split`, preceded by the base name without its extension |
| Catalog.BaseNameAfterLastSlash | todolux-splitter.js:35 | the base name is the text after the path's last `/` |
| Catalog.ExtNameFromLastDot | todolux-splitter.js:35 | the extension runs from the name's last `.` when that `.` is not its first character |
| Catalog.StemBetween | todolux-splitter.js:35 | the stem is the text between the path's last `/` and the name's last `.` |
| Catalog.DefaultPrefix | todolux-splitter.js:35-36 | with no output name, the prefix is the text between the last `/` and the last `.`, followed by `-split` |
| Catalog.HeaderShape | todolux-splitter.js:22-24 | there is no header exactly when the marker never occurs; otherwise it is a prefix ending with the marker and holding it once |
| Catalog.TerminatedSnoc | todolux-splitter.js:52 | appending a product to the file text adds the product and a newline |
| Catalog.TerminatedEmpty | todolux-splitter.js:56 | the accumulated file text is empty exactly when no product was added |
| HeaderReader.ReadHeader | src/splitter.js:12-47 | the chunk-by-chunk header reader; `ReadHeaderIsHeaderOf`, `ReadHeaderShape` and `ChunkingIrrelevant` state what it returns |
| HeaderReader.ReadFromIsHeaderOf | src/splitter.js:19-41 | reading on from text without the marker gives the header of all text read |
| HeaderReader.ReadHeaderIsHeaderOf | src/splitter.js:12-47 | the header read from chunks is the header of their concatenation |
| HeaderReader.ChunkingIrrelevant | src/splitter.js:21-31 | two chunkings of the same text give the same header or the same error |
| HeaderReader.ReadHeaderShape | src/splitter.js:25-41 | reading fails exactly when the marker never occurs; otherwise the header is a prefix ending with the marker, holding it once |
| RecordSplitter.SpaceRun | todolux-splitter.js:28 | `\s+` takes the longest white-space run |
| RecordSplitter.OpenTagLength | todolux-splitter.js:28 | an opening tag matched is at least `<PRODUCT>` long and stays inside the text |
| RecordSplitter.OpenTagShape | todolux-splitter.js:28 | an opening tag matched is `<PRODUCT>` or `<PRODUCT`, white space, `mode="new">`, and holds no other `<` |
| RecordSplitter.MatchAt | todolux-splitter.js:28 | a match is at least an opening tag and a closing tag long and stays inside the text |
| RecordSplitter.MatchTable | todolux-splitter.js:28 | the outcome at every position is the match there, and every match ends after its start and inside the text |
| RecordSplitter.Scan | todolux-splitter.js:28 | every span found is a match, and the spans are in order and do not overlap |
| RecordSplitter.ScanComplete | todolux-splitter.js:28 | every position where a match starts lies inside one of the spans found |
| RecordSplitter.ExtractProducts | todolux-splitter.js:28-38 | extraction fails (`products` is null) exactly when nothing matches; otherwise every product is a complete record |
| RecordSplitter.MatchIsProduct | todolux-splitter.js:28 | the matched text opens with a product tag and ends at the first closing tag |
| RecordSplitter.ProductIsMatch | todolux-splitter.js:28 | conversely, a slice with the shape of a product is exactly the match starting there, so the shape describes a match exactly |
| RecordSplitter.SliceParts | todolux-splitter.js:28 | the text from an opening tag through the first closing tag after it opens with that tag and holds the closing tag at its end and nowhere before |
| RecordSplitter.ProductFirstClose | todolux-splitter.js:28 | the first closing tag of a complete record is the one that ends it |
| RecordSplitter.UnclosedRecordMerges | todolux-splitter.js:28 | when a record has no closing tag before the next record, its match runs to the end of the next record's match, so the two become one product |
| RecordSplitter.UnclosedRecordMergesExample | todolux-splitter.js:28 | for example, `<PRODUCT>a<PRODUCT>b</PRODUCT>` is a single match of the whole text |
| RecordSplitter.CloseOnlyAtEnd | todolux-splitter.js:28 | the lazy body leaves no closing tag before the one that ends the match |
| RecordSplitter.ProductTrimmed | todolux-splitter.js:39 | a matched product starts with `<` and ends with `>`, so trimming leaves it unchanged |
| RecordSplitter.TrimKeepsProducts | todolux-splitter.js:38-39 | trimming the extracted products changes none of them |
| RecordSplitter.PackStep | todolux-splitter.js:41-53 | one product of the packing loop; `PackLoopConserves`, `PackLoopBounded`, `PackLoopGreedy` and `PackLoopEmptyOnlyFirst` state what the loop keeps |
| RecordSplitter.PackLoopConserves | todolux-splitter.js:38-54 | after any number of products, written files then open file hold exactly those products in order, indices 1, 2, … |
| RecordSplitter.PackLoopBounded | todolux-splitter.js:41-53 | the counter is the open file's byte total, and a file of two or more products stays within the limit |
| RecordSplitter.PackLoopGreedy | todolux-splitter.js:42-50 | a file is closed only because its bytes plus the next product exceed the limit |
| RecordSplitter.PackLoopEmptyOnlyFirst | todolux-splitter.js:42-50 | only the first file can be empty, exactly when the first product alone exceeds the limit |
| RecordSplitter.PackConserves | todolux-splitter.js:38-61 | the written files hold all products, each once, in input order, numbered 1, 2, … with no gap |
| RecordSplitter.PackBounded | todolux-splitter.js:41-53 | every file of two or more products is within the limit |
| RecordSplitter.PackGreedy | todolux-splitter.js:42-53 | each file but the last was closed because the next file's first product did not fit in it |
| RecordSplitter.PackEmptyFiles | todolux-splitter.js:42-61 | no products means no file; only the first file can be empty, exactly when the first product exceeds the limit |
| RecordSplitter.ThreeFortyMiBProducts | todolux-splitter.js:41-61 | three 40 MiB products under 90 MiB give two files: two products, then one |
| RecordSplitter.OversizedFirstProduct | todolux-splitter.js:41-61 | a single product larger than the limit gives an empty first file and then the product alone |
| RecordSplitter.CommonTagsIsHeader | todolux-splitter.js:22-24 | the common tags are the header: the text through the first `<T_NEW_CATALOG>` |
| RecordSplitter.SplitXmlFile | todolux-splitter.js:20-64 | the whole splitter; `SplitXmlFileShape` states the files it returns |
| RecordSplitter.SplitXmlFileShape | todolux-splitter.js:20-64 | every file is common tags, newline, products each with a newline, footer; names run 1, 2, …; the files' products are the extracted products in order |
| LineMachine.Step | src/splitter.js:99-124 | one line of the line loop; `MarkerLineSkipped`, `LineCounted`, `OpenTagDiscards`, `WriteExactly` and `StepInvariant` state what it does |
| LineMachine.MarkerLineSkipped | src/splitter.js:100-103 | a line holding `<T_NEW_CATALOG>` changes nothing |
| LineMachine.LineCounted | src/splitter.js:105-123 | any other line adds its bytes plus one to the counter, unless it writes a file, which resets the counter to the header's size |
| LineMachine.OpenTagDiscards | src/splitter.js:105-108 | a product-opening line replaces the pending product and never writes a file |
| LineMachine.WriteExactly | src/splitter.js:109-118 | a file is written exactly when a closing line pushes the counter past 90 MiB; it holds catalog, product and footer, and the state is reset |
| LineMachine.RestartKeeps | src/splitter.js:105-108 | replacing the pending product with a line keeps the invariant |
| LineMachine.AppendKeeps | src/splitter.js:109-123 | appending a line to the pending product keeps the invariant, the counter still covering header and product |
| LineMachine.WriteKeeps | src/splitter.js:77-88 | writing a non-empty pending product adds a well-formed, correctly numbered file |
| LineMachine.StepInvariant | src/splitter.js:77-124 | each line keeps the catalog equal to the header, files numbered from 1, each file header + non-empty text + footer, and the counter covering header and product |
| LineMachine.LoopInvariant | src/splitter.js:96-125 | the invariant holds after any sequence of lines |
| LineMachine.FinishWritesPending | src/splitter.js:127-131 | the end of the stream writes one more file exactly when a product is pending, holding header, product and footer |
| LineMachine.SplitXmlFile | src/splitter.js:49-139 | the whole splitter; `SplitXmlFileShape` and `SplitXmlFileNeedsHeader` state what it returns |
| LineMachine.SplitXmlFileShape | src/splitter.js:49-139 | every file returned is the header, non-empty text and the footer, named `${prefix}-1.xml`, `${prefix}-2.xml`, … |
| LineMachine.SplitXmlFileNeedsHeader | src/splitter.js:56-64 | the splitter fails exactly when the input never holds `<T_NEW_CATALOG>` |
| LinePacker.Step | index.js:61-86 | one line of the line loop; `OversizedWrittenAlone`, `OverflowDoublesAccumulator`, `LineAppended`, `StepConserves` and `StepBounded` state what it does |
| LinePacker.WriteNextFileEffect | index.js:42-55 | writing does nothing on empty content; otherwise it appends the content as the next numbered file and clears it; the counter is untouched |
| LinePacker.OversizedWrittenAlone | index.js:64-71 | an oversized line is written alone, right after the pending content is flushed, and never enters the content or the counter |
| LinePacker.OverflowDoublesAccumulator | index.js:80-86 | on overflow the line starts a new content and the counter ends at twice the line's size |
| LinePacker.LineAppended | index.js:80-86 | without overflow the line and its newline are appended and counted once |
| LinePacker.StepConserves | index.js:60-87 | each line keeps: written bodies then content equal the lines handled, each with its newline; files numbered from 1; no empty body |
| LinePacker.LoopConserves | index.js:57-88 | the conservation invariant holds after any sequence of lines |
| LinePacker.FinishConserves | index.js:90-93 | after the end handler the bodies are exactly all lines with newlines, none empty, numbered 1, 2, … |
| LinePacker.StepBounded | index.js:61-86 | each line keeps the counter at or above the content's bytes, and keeps every body within the limit unless it is one oversized line |
| LinePacker.LoopBounded | index.js:57-88 | the bound holds after any sequence of lines without newlines |
| LinePacker.MarginAtMostOnce | index.js:74-78 | the margin branch runs at most once per run: once exactly when `firstLine` has been cleared |
| LinePacker.SplitXmlFile | index.js:25-101 | the whole splitter; `SplitXmlFileShape` states the files it returns |
| LinePacker.SplitXmlFileShape | index.js:25-101 | files are numbered from 1 with no gap, each a non-empty body and the footer, within the limit or a single oversized line, and together they hold the input's lines |
| Arguments.SplitOn | src/arguments.js:42 | `split("=")` gives at least one field, none holding `=`, two or more exactly when `=` occurs; the first field is a prefix |
| Arguments.SplitOnJoin | src/arguments.js:42 | rejoining the fields with the separator gives back the argument |
| Arguments.ValueAfterFlag | src/arguments.js:41-42 | the value of `flag=v` is `v` up to its first `=`, and `v` itself when it has none |
| Arguments.Parse | index.js:103-160 | a run always has a non-empty input file, and index.js never fails on an undefined name |
| Arguments.ParseModule | src/arguments.js:5-61 | a run always has a non-empty input file; this variant never shows the help or the missing-input error |
| Arguments.ModuleThrowsWhereIndexPrints | src/arguments.js:14-58 | src/arguments.js throws exactly where index.js would print the usage or the missing-input error, and otherwise gives the same outcome |
| Arguments.ParseTodolux | todolux-splitter.js:67-99 | this variant never shows a version, and a run always has an input file |
| Arguments.ApplyArg | src/arguments.js:41-50 | one argument of the decoding loop; `UnrecognisedIgnored`, `ApplyArgFrame`, `InputLastWins`, `OutputLastWins` and `SizeSetBy` state what it does |
| Arguments.UnrecognisedIgnored | src/arguments.js:40-51 | an argument that is none of the three flags changes nothing |
| Arguments.ApplyArgFrame | src/arguments.js:40-51 | each flag changes only its own setting |
| Arguments.InputLastWins | src/arguments.js:41-42 | the last `--input=` decides the input file; with none it keeps its earlier value |
| Arguments.OutputLastWins | src/arguments.js:48-49 | the last `--output=` decides the output prefix; with none it keeps its earlier value |
| Arguments.SizeSetBy | src/arguments.js:43-47 | a `--size=` with a number sets the limit to that number of MiB |
| Arguments.SizeLastWins | src/arguments.js:43-47 | the last `--size=` with a number decides the limit; with none it keeps its earlier value |
| Arguments.SizeInMebibytes | src/arguments.js:43-47 | `--size=n` sets the limit to n × 1024 × 1024 bytes |
| Arguments.NoFlagsKeepDefaults | src/arguments.js:35-51 | with no recognised flag, the settings stay at no input, 90 MiB and no output prefix |
| Arguments.Precedence | src/arguments.js:8-16 | `--version` wins over everything; otherwise no arguments or `--help` shows the help in index.js and todolux-splitter.js, and throws in src/arguments.js |
| Arguments.RunNeedsInput | index.js:152-160 | past help and version, the outcome is the missing-input error exactly when no input was given, and otherwise a run with the decoded settings |
| Arguments.EmptyInputValue | src/arguments.js:41-42 | `--input=` with nothing after it gives an empty input, so it counts as missing |

## Left out

- File and stream I/O: reads, writes, `fs.promises.stat` and `process.exit`. The chunks a read stream delivers are an input sequence. The file contents produced are returned as values.
- The concrete chunk size (`highWaterMark` of 5 MiB, 200 MiB or `maxFileSize`): any chunking of a successful read is covered, so a particular one adds nothing.
- LinePacker.SplitXmlFile: index.js:32-35 passes `maxFileSize` as the read stream's `highWaterMark`, so a negative `--size` makes Node.js throw before anything is written; the model returns files for every limit.
- Read-stream `error` events (src/splitter.js:43-45): the model's reads always succeed.
- Write failures in src/splitter.js:89-93, which are logged and swallowed: the model's writes always succeed.
- The asynchronous interleaving of the `data` handler with `await writeNextFile()` in src/splitter.js: lines are handled strictly in order.
- The returned file lists of src/splitter.js and index.js, which are returned before the stream has been read: the model returns the files written at the end of the stream.
- The byte offset `start: header.length` of src/splitter.js:69: the body chunks are a separate input that starts right after the header. `Utf8.AsciiByteLength` states when the character count and the byte offset agree.
- Console output, colours, emojis and the help and version texts: only the outcome is modelled.
- Arguments.ParseModule: what follows its ReferenceError is left out. src/main.js, the only caller, does not catch it, so the error escapes the async `main`. The outcome only records that nothing is printed and no settings are returned.
- src/main.js, which passes `maxFileSize` where src/splitter.js expects `outputFileName`, is not part of this model.
- Catalog.BaseName: `path.basename` and `path.extname` are simplified to `/`-separated paths. There is no trailing-slash stripping, no Windows separators and no special case for names such as `..`.
- Numerals.ParseIntDecimal: JavaScript numbers beyond 2^53 lose precision and `-0` is not distinguished from `0`; the model uses exact integers.
- Text.IndexOfFrom: positions count Unicode scalar values, whereas JavaScript counts UTF-16 code units. The two differ only for characters outside the Basic Multilingual Plane, and every property here is stated in the model's own positions.
- Utf8.ByteLength: lone surrogates, which Node.js encodes as three replacement bytes, cannot occur in a Dafny string.

=== FILE: arguments.dfy ===
/**
  Command-line decoding: `parseCommandLineArguments` in src/arguments.js,
  and the same loop inlined in index.js and todolux-splitter.js. Printing
  and `process.exit` become the outcome value.
 */
module Arguments {
  import Text
  import Numerals
  import Catalog
  import Lines

  /** The three settings the loop fills in. */
  datatype Config = Config(xmlFile: string, maxFileSize: int, outputFileName: string)

  /** What the program does with its arguments. */
  datatype Outcome =
    | ShowVersion        // print the version, exit code 0
    | ShowHelp           // print the usage text, exit code 0 (index.js and todolux-splitter.js)
    | MissingInput       // print the error, exit code 1 (index.js and todolux-splitter.js)
    | NameNotDefined     // src/arguments.js reads the unimported `colors`: a ReferenceError, nothing printed
    | Run(config: Config)

  /** Lines 35-37: no input, 90 MiB, no output prefix. */
  const Defaults: Config := Config("", 90 * Catalog.MiB, "")

  const InputFlag: string := "--input="
  const SizeFlag: string := "--size="
  const OutputFlag: string := "--output="

  /** `s.split(sep)` for a one-character separator. */
  function SplitOn(s: string, sep: char): (fields: seq<string>)
    ensures |fields| >= 1
    ensures forall i :: 0 <= i < |fields| ==> sep !in fields[i]
    ensures sep in s <==> |fields| >= 2
    ensures |fields[0]| <= |s| && fields[0] == s[..|fields[0]|]
  {
    if |s| == 0 then [""]
    else if s[0] == sep then [""] + SplitOn(s[1..], sep)
    else
      var rest := SplitOn(s[1..], sep);
      [[s[0]] + rest[0]] + rest[1..]
  }

  /** Joining the fields with the separator gives the text back. */
  lemma {:induction false} SplitOnJoin(s: string, sep: char)
    ensures Lines.Join(SplitOn(s, sep), [sep]) == s
  {
    if |s| == 0 {
    } else if s[0] == sep {
      SplitOnJoin(s[1..], sep);
      assert ([""] + SplitOn(s[1..], sep))[1..] == SplitOn(s[1..], sep);
    } else {
      var rest := SplitOn(s[1..], sep);
      SplitOnJoin(s[1..], sep);
      Lines.JoinConsFirst(s[0], rest[0], rest[1..], [sep]);
      assert [rest[0]] + rest[1..] == rest;
    }
  }

  /** Text free of the separator, then the separator: it splits off as the first field. */
  lemma {:induction false} SplitOnCons(p: string, sep: char, v: string)
    requires sep !in p
    ensures SplitOn(p + [sep] + v, sep) == [p] + SplitOn(v, sep)
  {
    var s := p + [sep] + v;
    if |p| == 0 {
      assert s[1..] == v;
    } else {
      assert s[1..] == p[1..] + [sep] + v;
      assert sep !in p[1..] by {
        forall i | 0 <= i < |p[1..]| ensures p[1..][i] != sep {
          assert p[1..][i] == p[i + 1];
        }
      }
      SplitOnCons(p[1..], sep, v);
      assert [p[0]] + p[1..] == p;
    }
  }

  /** `arg.split("=")[1]`: for a flag argument, the text between the first and second `=`. */
  function Value(arg: string): string
    requires '=' in arg
  {
    SplitOn(arg, '=')[1]
  }

  /** After a flag ending in its only `=`, the value runs up to the next `=` or the end. */
  lemma ValueAfterFlag(flag: string, v: string)
    requires |flag| > 0 && flag[|flag| - 1] == '=' && '=' !in flag[..|flag| - 1]
    ensures '=' in flag + v
    ensures Value(flag + v) == SplitOn(v, '=')[0]
    ensures '=' !in v ==> Value(flag + v) == v
  {
    var p := flag[..|flag| - 1];
    assert flag + v == p + ['='] + v;
    assert (flag + v)[|flag| - 1] == '=';
    SplitOnCons(p, '=', v);
    if '=' !in v {
      SplitOnJoin(v, '=');
    }
  }

  /** An argument starting with a flag that ends in `=` contains `=`. */
  lemma FlagHasEquals(arg: string, flag: string)
    requires |flag| > 0 && flag[|flag| - 1] == '=' && Text.StartsWith(arg, flag)
    ensures '=' in arg
  {
    assert arg[|flag| - 1] == arg[..|flag|][|flag| - 1];
  }

  /** One pass of the loop body, lines 41-50. */
  function ApplyArg(c: Config, arg: string): Config
  {
    if Text.StartsWith(arg, InputFlag) then
      FlagHasEquals(arg, InputFlag);
      c.(xmlFile := Value(arg))
    else if Text.StartsWith(arg, SizeFlag) then
      FlagHasEquals(arg, SizeFlag);
      match Numerals.ParseInt(Value(arg))
      case None => c
      case Some(sizeInMB) => c.(maxFileSize := sizeInMB * Catalog.MiB)
    else if Text.StartsWith(arg, OutputFlag) then
      FlagHasEquals(arg, OutputFlag);
      c.(outputFileName := Value(arg))
    else c
  }

  /** The loop over all arguments, lines 40-51. */
  function ApplyArgs(c: Config, args: seq<string>): Config
  {
    if |args| == 0 then c else ApplyArg(ApplyArgs(c, args[..|args| - 1]), args[|args| - 1])
  }

  /** The argument handling of `main` in index.js, lines 103-160. */
  function Parse(args: seq<string>): (r: Outcome)
    ensures r.Run? ==> r.config.xmlFile != ""
    ensures r != NameNotDefined
  {
    if "--version" in args then ShowVersion
    else if |args| == 0 || "--help" in args then ShowHelp
    else
      var c := ApplyArgs(Defaults, args);
      if c.xmlFile == "" then MissingInput else Run(c)
  }

  /**
    `parseCommandLineArguments()` of src/arguments.js. The module is an ES
    module and imports neither `colors` nor `emojis`, so the usage text and
    the missing-input message throw a ReferenceError when their template
    strings are built: those two paths print nothing and return nothing.
   */
  function ParseModule(args: seq<string>): (r: Outcome)
    ensures r != ShowHelp && r != MissingInput
    ensures r.Run? ==> r.config.xmlFile != ""
  {
    if "--version" in args then ShowVersion
    else if |args| == 0 || "--help" in args then NameNotDefined
    else
      var c := ApplyArgs(Defaults, args);
      if c.xmlFile == "" then NameNotDefined else Run(c)
  }

  /** The top level of todolux-splitter.js, lines 67-99, which has no `--version`. */
  function ParseTodolux(args: seq<string>): (r: Outcome)
    ensures r != ShowVersion && r != NameNotDefined
    ensures r.Run? ==> r.config.xmlFile != ""
  {
    if |args| == 0 || "--help" in args then ShowHelp
    else
      var c := ApplyArgs(Defaults, args);
      if c.xmlFile == "" then MissingInput else Run(c)
  }

  // ---------------------------------------------------------------------------
  // Properties
  // ---------------------------------------------------------------------------

  /** True when the argument is one of the three recognised flags. */
  predicate Recognised(arg: string) {
    Text.StartsWith(arg, InputFlag) || Text.StartsWith(arg, SizeFlag) || Text.StartsWith(arg, OutputFlag)
  }

  /** An argument matching no flag is ignored. */
  lemma UnrecognisedIgnored(c: Config, arg: string)
    requires !Recognised(arg)
    ensures ApplyArg(c, arg) == c
  {
  }

  /** The three flags exclude each other, since they differ in their third character. */
  lemma FlagsDisjoint(arg: string)
    ensures !(Text.StartsWith(arg, InputFlag) && Text.StartsWith(arg, SizeFlag))
    ensures !(Text.StartsWith(arg, InputFlag) && Text.StartsWith(arg, OutputFlag))
    ensures !(Text.StartsWith(arg, SizeFlag) && Text.StartsWith(arg, OutputFlag))
  {
    if Text.StartsWith(arg, InputFlag) {
      Text.OccursAtChar(arg, InputFlag, 0, 2);
      Text.NotOccursAt(arg, SizeFlag, 0, 2);
      Text.NotOccursAt(arg, OutputFlag, 0, 2);
    }
    if Text.StartsWith(arg, SizeFlag) {
      Text.OccursAtChar(arg, SizeFlag, 0, 2);
      Text.NotOccursAt(arg, OutputFlag, 0, 2);
    }
  }

  /** True when the argument sets the size: `--size=` with a value `parseInt` reads. */
  predicate SetsSize(arg: string) {
    Text.StartsWith(arg, SizeFlag) && '=' in arg && Numerals.ParseInt(Value(arg)).Some?
  }

  /** Each setting changes only on its own flag. */
  lemma ApplyArgFrame(c: Config, arg: string)
    ensures !Text.StartsWith(arg, InputFlag) ==> ApplyArg(c, arg).xmlFile == c.xmlFile
    ensures !Text.StartsWith(arg, OutputFlag) ==> ApplyArg(c, arg).outputFileName == c.outputFileName
    ensures !SetsSize(arg) ==> ApplyArg(c, arg).maxFileSize == c.maxFileSize
  {
    FlagsDisjoint(arg);
    if Text.StartsWith(arg, SizeFlag) {
      FlagHasEquals(arg, SizeFlag);
    }
  }

  /** `args[i]` is the last argument that satisfies `P`. */
  ghost predicate IsLast(args: seq<string>, i: int, P: string -> bool) {
    0 <= i < |args| && P(args[i]) && forall j :: i < j < |args| ==> !P(args[j])
  }

  /** The last argument with a property, if not the final one, is also the last before the final one. */
  lemma IsLastDropLast(args: seq<string>, i: int, P: string -> bool)
    requires IsLast(args, i, P) && i < |args| - 1
    ensures IsLast(args[..|args| - 1], i, P) && !P(args[|args| - 1])
  {
    var before := args[..|args| - 1];
    forall j | i < j < |before| ensures !P(before[j]) {
      assert before[j] == args[j];
    }
  }

  predicate IsInput(arg: string) {
    Text.StartsWith(arg, InputFlag)
  }

  predicate IsOutput(arg: string) {
    Text.StartsWith(arg, OutputFlag)
  }

  /** The last `--input=` wins; with none, the input keeps its earlier value. */
  lemma InputLastWins(c: Config, args: seq<string>)
    ensures (forall j :: 0 <= j < |args| ==> !Text.StartsWith(args[j], InputFlag)) ==>
      ApplyArgs(c, args).xmlFile == c.xmlFile
    ensures forall i :: IsLast(args, i, IsInput) ==>
      '=' in args[i] && ApplyArgs(c, args).xmlFile == Value(args[i])
  {
    if forall j :: 0 <= j < |args| ==> !Text.StartsWith(args[j], InputFlag) {
      InputUnset(c, args);
    }
    forall i | IsLast(args, i, IsInput)
      ensures '=' in args[i] && ApplyArgs(c, args).xmlFile == Value(args[i])
    {
      FlagHasEquals(args[i], InputFlag);
      InputSetByLast(c, args, i);
    }
  }

  lemma {:induction false} InputUnset(c: Config, args: seq<string>)
    requires forall j :: 0 <= j < |args| ==> !IsInput(args[j])
    ensures ApplyArgs(c, args).xmlFile == c.xmlFile
  {
    if |args| > 0 {
      var before := args[..|args| - 1];
      forall j | 0 <= j < |before| ensures !IsInput(before[j]) {
        assert before[j] == args[j];
      }
      InputUnset(c, before);
      ApplyArgFrame(ApplyArgs(c, before), args[|args| - 1]);
    }
  }

  lemma {:induction false} InputSetByLast(c: Config, args: seq<string>, i: int)
    requires IsLast(args, i, IsInput)
    ensures '=' in args[i] && ApplyArgs(c, args).xmlFile == Value(args[i])
  {
    var before := args[..|args| - 1];
    var last := args[|args| - 1];
    FlagHasEquals(args[i], InputFlag);
    if i < |args| - 1 {
      IsLastDropLast(args, i, IsInput);
      InputSetByLast(c, before, i);
      ApplyArgFrame(ApplyArgs(c, before), last);
    }
  }

  /** The last `--output=` wins; with none, the prefix keeps its earlier value. */
  lemma OutputLastWins(c: Config, args: seq<string>)
    ensures (forall j :: 0 <= j < |args| ==> !Text.StartsWith(args[j], OutputFlag)) ==>
      ApplyArgs(c, args).outputFileName == c.outputFileName
    ensures forall i :: IsLast(args, i, IsOutput) ==>
      '=' in args[i] && ApplyArgs(c, args).outputFileName == Value(args[i])
  {
    if forall j :: 0 <= j < |args| ==> !Text.StartsWith(args[j], OutputFlag) {
      OutputUnset(c, args);
    }
    forall i | IsLast(args, i, IsOutput)
      ensures '=' in args[i] && ApplyArgs(c, args).outputFileName == Value(args[i])
    {
      FlagHasEquals(args[i], OutputFlag);
      OutputSetByLast(c, args, i);
    }
  }

  lemma {:induction false} OutputUnset(c: Config, args: seq<string>)
    requires forall j :: 0 <= j < |args| ==> !IsOutput(args[j])
    ensures ApplyArgs(c, args).outputFileName == c.outputFileName
  {
    if |args| > 0 {
      var before := args[..|args| - 1];
      forall j | 0 <= j < |before| ensures !IsOutput(before[j]) {
        assert before[j] == args[j];
      }
      OutputUnset(c, before);
      ApplyArgFrame(ApplyArgs(c, before), args[|args| - 1]);
    }
  }

  lemma {:induction false} OutputSetByLast(c: Config, args: seq<string>, i: int)
    requires IsLast(args, i, IsOutput)
    ensures '=' in args[i] && ApplyArgs(c, args).outputFileName == Value(args[i])
  {
    var before := args[..|args| - 1];
    var last := args[|args| - 1];
    FlagHasEquals(args[i], OutputFlag);
    FlagsDisjoint(last);
    if i < |args| - 1 {
      IsLastDropLast(args, i, IsOutput);
      OutputSetByLast(c, before, i);
      ApplyArgFrame(ApplyArgs(c, before), last);
    }
  }

  /** An argument that sets the size sets it to its value in mebibytes. */
  lemma SizeSetBy(c: Config, arg: string)
    requires SetsSize(arg)
    ensures ApplyArg(c, arg).maxFileSize == Numerals.ParseInt(Value(arg)).value * Catalog.MiB
  {
    FlagsDisjoint(arg);
  }

  /**
    The size is set by the last `--size=` whose value `parseInt` reads, to
    that many mebibytes; a `NaN` value leaves the size unchanged.
   */
  lemma SizeLastWins(c: Config, args: seq<string>)
    ensures (forall j :: 0 <= j < |args| ==> !SetsSize(args[j])) ==>
      ApplyArgs(c, args).maxFileSize == c.maxFileSize
    ensures forall i :: IsLast(args, i, SetsSize) ==>
      ApplyArgs(c, args).maxFileSize == Numerals.ParseInt(Value(args[i])).value * Catalog.MiB
  {
    if forall j :: 0 <= j < |args| ==> !SetsSize(args[j]) {
      SizeUnset(c, args);
    }
    forall i | IsLast(args, i, SetsSize)
      ensures ApplyArgs(c, args).maxFileSize == Numerals.ParseInt(Value(args[i])).value * Catalog.MiB
    {
      SizeSetByLast(c, args, i);
    }
  }

  lemma {:induction false} SizeUnset(c: Config, args: seq<string>)
    requires forall j :: 0 <= j < |args| ==> !SetsSize(args[j])
    ensures ApplyArgs(c, args).maxFileSize == c.maxFileSize
  {
    if |args| > 0 {
      var before := args[..|args| - 1];
      forall j | 0 <= j < |before| ensures !SetsSize(before[j]) {
        assert before[j] == args[j];
      }
      SizeUnset(c, before);
      ApplyArgFrame(ApplyArgs(c, before), args[|args| - 1]);
    }
  }

  lemma {:induction false} SizeSetByLast(c: Config, args: seq<string>, i: int)
    requires IsLast(args, i, SetsSize)
    ensures ApplyArgs(c, args).maxFileSize == Numerals.ParseInt(Value(args[i])).value * Catalog.MiB
  {
    var before := args[..|args| - 1];
    var last := args[|args| - 1];
    var c1 := ApplyArgs(c, before);
    if i == |args| - 1 {
      SizeSetBy(c1, last);
    } else {
      IsLastDropLast(args, i, SetsSize);
      SizeSetByLast(c, before, i);
      ApplyArgFrame(c1, last);
    }
  }

  /** `--size=n` with a decimal `n` sets `n` mebibytes. */
  lemma SizeInMebibytes(c: Config, n: nat)
    ensures ApplyArg(c, SizeFlag + Numerals.Decimal(n)).maxFileSize == n * Catalog.MiB
  {
    var arg := SizeFlag + Numerals.Decimal(n);
    ValueAfterFlag(SizeFlag, Numerals.Decimal(n));
    assert '=' !in Numerals.Decimal(n) by {
      var d := Numerals.Decimal(n);
      forall i | 0 <= i < |d| ensures d[i] != '=' {
        assert Numerals.IsDecimalDigit(d[i]);
      }
    }
    Numerals.ParseIntDecimal(n, "");
    assert Numerals.Decimal(n) + "" == Numerals.Decimal(n);
    assert arg[..|SizeFlag|] == SizeFlag;
    FlagsDisjoint(arg);
  }

  /** With no recognised flag, the defaults stand: no input, 90 MiB, no output prefix. */
  lemma {:induction false} NoFlagsKeepDefaults(args: seq<string>)
    requires forall i :: 0 <= i < |args| ==> !Recognised(args[i])
    ensures ApplyArgs(Defaults, args) == Config("", 90 * 1024 * 1024, "")
  {
    if |args| > 0 {
      NoFlagsKeepDefaults(args[..|args| - 1]);
      UnrecognisedIgnored(ApplyArgs(Defaults, args[..|args| - 1]), args[|args| - 1]);
    }
  }

  /**
    `--version` wins over everything; then `--help` or no argument at all
    shows the usage, except in src/arguments.js, where that path throws.
   */
  lemma Precedence(args: seq<string>)
    ensures "--version" in args ==> Parse(args) == ShowVersion && ParseModule(args) == ShowVersion
    ensures "--version" !in args && ("--help" in args || |args| == 0) ==>
      Parse(args) == ShowHelp && ParseModule(args) == NameNotDefined
    ensures ("--help" in args || |args| == 0) ==> ParseTodolux(args) == ShowHelp
  {
  }

  /**
    src/arguments.js and index.js decode the same arguments alike; they part
    exactly where index.js prints the usage or the missing-input error and
    src/arguments.js throws instead.
   */
  lemma ModuleThrowsWhereIndexPrints(args: seq<string>)
    ensures ParseModule(args) == NameNotDefined <==> Parse(args) == ShowHelp || Parse(args) == MissingInput
    ensures ParseModule(args) != NameNotDefined ==> ParseModule(args) == Parse(args)
  {
  }

  /**
    Without help or version, the program runs exactly when the input ends
    up non-empty; an empty one (no `--input=`, or a last `--input=` with an
    empty value) exits with code 1.
   */
  lemma RunNeedsInput(args: seq<string>)
    requires "--version" !in args && "--help" !in args && |args| > 0
    ensures Parse(args) == MissingInput <==> ApplyArgs(Defaults, args).xmlFile == ""
    ensures Parse(args).Run? <==> ApplyArgs(Defaults, args).xmlFile != ""
    ensures Parse(args).Run? ==> Parse(args).config == ApplyArgs(Defaults, args)
  {
  }

  /** `--input=` with nothing after it yields an empty input. */
  lemma EmptyInputValue()
    ensures '=' in InputFlag && Value(InputFlag) == ""
  {
    ValueAfterFlag(InputFlag, "");
    assert InputFlag + "" == InputFlag;
  }
}

=== FILE: catalog.dfy ===
/**
  What the three splitters share: the BMEcat container markers, the footer
  every output file ends with, output file names, the default name prefix,
  and the header (the input up to and including the first
  `<T_NEW_CATALOG>`).
 */
module Catalog {
  import opened Wrappers
  import Text
  import Numerals

  /** Opening container marker; the header ends with it. */
  const OpenCatalog: string := "<T_NEW_CATALOG>"

  /** Closing container marker. */
  const CloseCatalog: string := "</T_NEW_CATALOG>"

  /** Text appended to every output file. */
  const Footer: string := "</T_NEW_CATALOG>\n</BMECAT>"

  /** Bytes in a mebibyte, the unit of `--size=`. */
  const MiB: nat := 1024 * 1024

  /** One written output file: its path and its full content. */
  datatype OutputFile = OutputFile(name: string, content: string)

  /** `${prefix}-${index}.xml`. */
  function FileName(prefix: string, index: nat): string
  {
    prefix + "-" + Numerals.Decimal(index) + ".xml"
  }

  /** Different indices give different file names under the same prefix. */
  lemma FileNameInjective(prefix: string, j: nat, k: nat)
    requires FileName(prefix, j) == FileName(prefix, k)
    ensures j == k
  {
    var a := FileName(prefix, j);
    var b := FileName(prefix, k);
    assert |Numerals.Decimal(j)| == |Numerals.Decimal(k)|;
    assert a[|prefix| + 1..|a| - 4] == Numerals.Decimal(j);
    assert b[|prefix| + 1..|b| - 4] == Numerals.Decimal(k);
    Numerals.DecimalInjective(j, k);
  }

  /** The files are named `${prefix}-1.xml`, `${prefix}-2.xml`, ... in order, with no gap. */
  ghost predicate NumberedFrom1(files: seq<OutputFile>, prefix: string) {
    forall i :: 0 <= i < |files| ==> files[i].name == FileName(prefix, i + 1)
  }

  /** Consecutively numbered files never share a name. */
  lemma NumberedNamesDistinct(files: seq<OutputFile>, prefix: string, i: nat, j: nat)
    requires NumberedFrom1(files, prefix)
    requires i < j < |files|
    ensures files[i].name != files[j].name
  {
    if files[i].name == files[j].name {
      FileNameInjective(prefix, i + 1, j + 1);
    }
  }

  /** Position of the last `c` in `s`, if any. */
  function LastIndexOfChar(s: string, c: char): (r: Option<nat>)
    ensures r.Some? ==> r.value < |s| && s[r.value] == c
    ensures r.Some? ==> forall i :: r.value < i < |s| ==> s[i] != c
    ensures r.None? ==> c !in s
  {
    if |s| == 0 then None
    else if s[|s| - 1] == c then Some(|s| - 1)
    else LastIndexOfChar(s[..|s| - 1], c)
  }

  /** `path.basename(p)` for a POSIX path without trailing slash: the text after the last `/`. */
  function BaseName(p: string): (r: string)
    ensures '/' !in r
    ensures Text.EndsWith(p, r)
    ensures |r| == |p| || p[|p| - |r| - 1] == '/'
  {
    match LastIndexOfChar(p, '/')
    case None => p
    case Some(i) => p[i + 1..]
  }

  /** `path.extname(base)`: from the last `.` on, unless that `.` is the first character. */
  function ExtName(base: string): (r: string)
    ensures Text.EndsWith(base, r)
    ensures r == "" || (r[0] == '.' && |r| < |base| && '.' !in r[1..])
    ensures r == "" <==> forall i :: 1 <= i < |base| ==> base[i] != '.'
  {
    match LastIndexOfChar(base, '.')
    case Some(i) => if i > 0 then base[i..] else ""
    case None => ""
  }

  /** `path.basename(p, path.extname(p))`: the file name without directory and extension. */
  function Stem(p: string): (r: string)
    ensures '/' !in r
    ensures r + ExtName(BaseName(p)) == BaseName(p)
  {
    var base := BaseName(p);
    var ext := ExtName(base);
    Text.EndsWithSplit(base, ext);
    base[..|base| - |ext|]
  }

  /** `outputFileName ? outputFileName : `${inputFileName}-split``. */
  function NamePrefix(xmlFile: string, outputFileName: string): (r: string)
    ensures outputFileName != "" ==> r == outputFileName
    ensures outputFileName == "" ==>
      && Text.EndsWith(r, "-split")
      && r[..|r| - 6] + ExtName(BaseName(xmlFile)) == BaseName(xmlFile)
  {
    if outputFileName != "" then outputFileName
    else
      var stem := Stem(xmlFile);
      Text.AppendParts(stem, "-split");
      stem + "-split"
  }

  /** The base name is the text after the last `/`. */
  lemma BaseNameAfterLastSlash(p: string, i: nat)
    requires i < |p| && p[i] == '/' && '/' !in p[i + 1..]
    ensures BaseName(p) == p[i + 1..]
  {
  }

  /** The extension runs from the last `.` when that `.` is not the first character. */
  lemma ExtNameFromLastDot(base: string, i: nat)
    requires 0 < i < |base| && base[i] == '.' && '.' !in base[i + 1..]
    ensures ExtName(base) == base[i..]
  {
  }

  /**
    With no output name, the prefix is the text between the path's last `/`
    and the file name's last `.`, followed by `-split`.
   */
  lemma DefaultPrefix(p: string, i: nat, j: nat)
    requires i + 1 < j < |p|
    requires p[i] == '/' && '/' !in p[i + 1..]
    requires p[j] == '.' && '.' !in p[j + 1..]
    ensures NamePrefix(p, "") == p[i + 1..j] + "-split"
  {
    StemBetween(p, i, j);
  }

  /** The stem is the text between the path's last `/` and the file name's last `.`. */
  lemma StemBetween(p: string, i: nat, j: nat)
    requires i + 1 < j < |p|
    requires p[i] == '/' && '/' !in p[i + 1..]
    requires p[j] == '.' && '.' !in p[j + 1..]
    ensures Stem(p) == p[i + 1..j]
  {
    BaseNameAfterLastSlash(p, i);
    DotInSuffix(p, i + 1, j);
    StemFromBase(p, p[i + 1..], j - i - 1);
  }

  /** The last `.` of `p` at `j` is also the last `.` of any suffix `p[from..]` that holds it. */
  lemma DotInSuffix(p: string, from: nat, j: nat)
    requires from <= j < |p| && p[j] == '.' && '.' !in p[j + 1..]
    ensures p[from..][j - from] == '.' && '.' !in p[from..][j - from + 1..]
    ensures p[from..][..j - from] == p[from..j]
  {
    assert p[from..][j - from + 1..] == p[j + 1..];
  }

  /** The stem is the base name up to its last `.`, when that `.` is not its first character. */
  lemma StemFromBase(p: string, base: string, k: nat)
    requires BaseName(p) == base
    requires 0 < k < |base| && base[k] == '.' && '.' !in base[k + 1..]
    ensures Stem(p) == base[..k]
  {
    ExtNameFromLastDot(base, k);
  }

  /** The header of `text`: everything through the end of the first `<T_NEW_CATALOG>`. */
  function HeaderOf(text: string): Option<string>
  {
    match Text.IndexOf(text, OpenCatalog)
    case Some(i) => Some(text[..i + |OpenCatalog|])
    case None => None
  }

  /**
    The header exists exactly when the marker occurs; it is then a prefix of
    the text that ends with the marker and holds it exactly once.
   */
  lemma HeaderShape(text: string)
    ensures HeaderOf(text).None? <==> forall j :: !Text.OccursAt(text, OpenCatalog, j)
    ensures HeaderOf(text).Some? ==>
      var h := HeaderOf(text).value;
      && |h| <= |text| && h == text[..|h|]
      && Text.EndsWith(h, OpenCatalog)
      && forall j :: Text.OccursAt(h, OpenCatalog, j) ==> j == |h| - |OpenCatalog|
  {
    match Text.IndexOf(text, OpenCatalog)
    case None =>
    case Some(i) =>
      var h := text[..i + |OpenCatalog|];
      assert h[i..i + |OpenCatalog|] == text[i..i + |OpenCatalog|];
      forall j | Text.OccursAt(h, OpenCatalog, j)
        ensures j == |h| - |OpenCatalog|
      {
        Text.OccursAtAppend(h, text[|h|..], OpenCatalog, j);
        assert h + text[|h|..] == text;
      }
  }

  /** Each piece followed by a newline, concatenated: `pieces.map(p => p + "\n").join("")`. */
  function Terminated(pieces: seq<string>): (r: string)
    ensures |r| >= |pieces|
  {
    if |pieces| == 0 then "" else pieces[0] + "\n" + Terminated(pieces[1..])
  }

  /** Appending a piece appends it with its newline. */
  lemma {:induction false} TerminatedSnoc(pieces: seq<string>, p: string)
    ensures Terminated(pieces + [p]) == Terminated(pieces) + p + "\n"
  {
    if |pieces| == 0 {
      assert pieces + [p] == [p];
    } else {
      var rest := pieces[1..];
      assert (pieces + [p])[0] == pieces[0];
      assert (pieces + [p])[1..] == rest + [p];
      TerminatedSnoc(rest, p);
      assert pieces[0] + "\n" + (Terminated(rest) + p + "\n") == pieces[0] + "\n" + Terminated(rest) + p + "\n";
    }
  }

  /** Terminated text is empty exactly when there are no pieces. */
  lemma TerminatedEmpty(pieces: seq<string>)
    ensures Terminated(pieces) == "" <==> pieces == []
  {
  }
}

=== FILE: header_reader.dfy ===
/**
  `readHeader` of src/splitter.js: the input arrives as a sequence of
  decoded chunks; each chunk is appended to the text read so far, and the
  whole accumulated text is searched for `<T_NEW_CATALOG>`. The first time
  it is found, the header is the accumulated text through the end of the
  marker. If the stream ends first, reading fails.
 */
module HeaderReader {
  import opened Wrappers
  import Text
  import Catalog

  datatype HeaderError = MissingHeaderMarker

  /** The `data` handler applied to each remaining chunk, with `acc` read so far. */
  function ReadFrom(acc: string, chunks: seq<string>): Result<string, HeaderError>
    decreases |chunks|
  {
    if |chunks| == 0 then Failure(MissingHeaderMarker)
    else
      var text := acc + chunks[0];
      match Text.IndexOf(text, Catalog.OpenCatalog)
      case Some(i) => Success(text[..i + |Catalog.OpenCatalog|])
      case None => ReadFrom(text, chunks[1..])
  }

  /** `readHeader(xmlFile)` over the chunks the read stream delivers. */
  function ReadHeader(chunks: seq<string>): Result<string, HeaderError>
  {
    ReadFrom("", chunks)
  }

  /** What reading a whole text at once yields. */
  function HeaderResult(text: string): Result<string, HeaderError>
  {
    match Catalog.HeaderOf(text)
    case Some(h) => Success(h)
    case None => Failure(MissingHeaderMarker)
  }

  /** Reading the remaining chunks after a marker-free prefix is reading their concatenation. */
  lemma {:induction false} ReadFromIsHeaderOf(acc: string, chunks: seq<string>)
    requires Text.IndexOf(acc, Catalog.OpenCatalog).None?
    ensures ReadFrom(acc, chunks) == HeaderResult(acc + Text.Flatten(chunks))
    decreases |chunks|
  {
    if |chunks| == 0 {
      assert acc + Text.Flatten(chunks) == acc;
    } else {
      var text := acc + chunks[0];
      assert acc + Text.Flatten(chunks) == text + Text.Flatten(chunks[1..]);
      match Text.IndexOf(text, Catalog.OpenCatalog)
      case Some(i) =>
        var all := text + Text.Flatten(chunks[1..]);
        Text.IndexOfAppend(text, Text.Flatten(chunks[1..]), Catalog.OpenCatalog);
        assert all[..i + |Catalog.OpenCatalog|] == text[..i + |Catalog.OpenCatalog|];
      case None =>
        ReadFromIsHeaderOf(text, chunks[1..]);
    }
  }

  /** `readHeader` returns the header of the concatenated chunks, or fails when it has none. */
  lemma ReadHeaderIsHeaderOf(chunks: seq<string>)
    ensures ReadHeader(chunks) == HeaderResult(Text.Flatten(chunks))
  {
    assert Text.IndexOf("", Catalog.OpenCatalog).None?;
    ReadFromIsHeaderOf("", chunks);
    assert "" + Text.Flatten(chunks) == Text.Flatten(chunks);
  }

  /**
    The result does not depend on where the stream was cut into chunks:
    a marker split across two chunks is found all the same.
   */
  lemma ChunkingIrrelevant(chunks1: seq<string>, chunks2: seq<string>)
    requires Text.Flatten(chunks1) == Text.Flatten(chunks2)
    ensures ReadHeader(chunks1) == ReadHeader(chunks2)
  {
    ReadHeaderIsHeaderOf(chunks1);
    ReadHeaderIsHeaderOf(chunks2);
  }

  /**
    A returned header is a prefix of the input that ends with
    `<T_NEW_CATALOG>` and contains it exactly once; reading fails exactly
    when the input never contains the marker.
   */
  lemma ReadHeaderShape(chunks: seq<string>)
    ensures ReadHeader(chunks).Failure? <==>
      forall j :: !Text.OccursAt(Text.Flatten(chunks), Catalog.OpenCatalog, j)
    ensures ReadHeader(chunks).Success? ==>
      var h := ReadHeader(chunks).value;
      var text := Text.Flatten(chunks);
      && |h| <= |text| && h == text[..|h|]
      && Text.EndsWith(h, Catalog.OpenCatalog)
      && forall j :: Text.OccursAt(h, Catalog.OpenCatalog, j) ==> j == |h| - |Catalog.OpenCatalog|
  {
    ReadHeaderIsHeaderOf(chunks);
    Catalog.HeaderShape(Text.Flatten(chunks));
  }
}

=== FILE: line_machine.dfy ===
/**
  The line loop of `splitXMLFile` in src/splitter.js. After the header has
  been read, the rest of the input arrives in chunks; each chunk is split
  into lines, and each line drives a small state machine over
  `currentCatalog`, `currentProduct`, `currentFileSize` and `fileIndex`.
  A file is written only when a line closing a product pushes the
  accumulator past the fixed 90 MiB, and once more at the end of the
  stream if a product is pending.
 */
module LineMachine {
  import opened Wrappers
  import Text
  import Utf8
  import Catalog
  import Lines
  import HeaderReader

  /** The fixed limit: `90 * 1024 * 1024` bytes. */
  const Limit: nat := 90 * Catalog.MiB

  const ProductNew: string := "<PRODUCT mode=\"new\">"
  const ProductClose: string := "</PRODUCT>"

  /** The closure's variables, plus the files written so far in order. */
  datatype MachineState = MachineState(
    catalog: string,   // currentCatalog
    product: string,   // currentProduct
    size: int,         // currentFileSize
    index: nat,        // fileIndex
    files: seq<Catalog.OutputFile>)

  /**
    The state before the first body line (src/splitter.js:72-75): the catalog
    is the header, no product is pending, the counter holds the header's
    bytes, the next index is 1 and nothing is written.
   */
  function Init(header: string): MachineState
  {
    MachineState(header, "", Utf8.ByteLength(header), 1, [])
  }

  /** `writeNextFile` (lines 77-94) when the write succeeds. */
  function WriteNextFile(st: MachineState, header: string, prefix: string): MachineState
  {
    var file := Catalog.OutputFile(Catalog.FileName(prefix, st.index), st.catalog + st.product + Catalog.Footer);
    st.(files := st.files + [file], product := "", size := Utf8.ByteLength(header), index := st.index + 1)
  }

  /** One line of the `for (const line of lines)` loop, lines 99-124. */
  function Step(st: MachineState, line: string, header: string, prefix: string): MachineState
  {
    var lineSize := Utf8.ByteLength(line) + 1;
    if Text.Contains(line, Catalog.OpenCatalog) then st
    else if Text.Contains(line, ProductNew) then
      st.(product := line + "\n", size := st.size + lineSize)
    else if Text.Contains(line, ProductClose) then
      var st1 := st.(product := st.product + line + "\n", size := st.size + lineSize);
      if st1.size > Limit then WriteNextFile(st1, header, prefix).(catalog := header) else st1
    else
      st.(product := st.product + line + "\n", size := st.size + lineSize)
  }

  /** The state after every line of `lines` has been handled. */
  function Loop(lines: seq<string>, header: string, prefix: string): MachineState
  {
    if |lines| == 0 then Init(header)
    else Step(Loop(lines[..|lines| - 1], header, prefix), lines[|lines| - 1], header, prefix)
  }

  /** The `end` handler, lines 127-131: one more write if a product is pending. */
  function Finish(st: MachineState, header: string, prefix: string): MachineState
  {
    if st.product != "" then WriteNextFile(st, header, prefix) else st
  }

  /**
    `splitXMLFile(xmlFile, outputFileName)`: `headerChunks` are the chunks
    of the first read, `bodyChunks` those of the second read, which starts
    right after the header.
   */
  function SplitXmlFile(xmlFile: string, outputFileName: string,
                        headerChunks: seq<string>, bodyChunks: seq<string>)
    : Result<seq<Catalog.OutputFile>, HeaderReader.HeaderError>
  {
    var header :- HeaderReader.ReadHeader(headerChunks);
    var prefix := Catalog.NamePrefix(xmlFile, outputFileName);
    Success(Finish(Loop(Lines.LinesOfChunks(bodyChunks), header, prefix), header, prefix).files)
  }

  /** True when handling `line` in state `st` writes a file. */
  predicate WritesOn(st: MachineState, line: string)
  {
    && !Text.Contains(line, Catalog.OpenCatalog)
    && !Text.Contains(line, ProductNew)
    && Text.Contains(line, ProductClose)
    && st.size + Utf8.ByteLength(line) + 1 > Limit
  }

  lemma LineSize(line: string)
    ensures Utf8.ByteLength(line + "\n") == Utf8.ByteLength(line) + 1
  {
    Utf8.ByteLengthAppend(line, "\n");
  }

  /** A line holding `<T_NEW_CATALOG>` is skipped: nothing changes. */
  lemma MarkerLineSkipped(st: MachineState, line: string, header: string, prefix: string)
    requires Text.Contains(line, Catalog.OpenCatalog)
    ensures Step(st, line, header, prefix) == st
  {
  }

  /**
    Any other line adds its byte length plus one to the accumulator, unless
    it triggers a write, which resets the accumulator to the header's size.
   */
  lemma LineCounted(st: MachineState, line: string, header: string, prefix: string)
    requires !Text.Contains(line, Catalog.OpenCatalog)
    ensures var st' := Step(st, line, header, prefix);
      if WritesOn(st, line) then st'.size == Utf8.ByteLength(header)
      else st'.size == st.size + Utf8.ByteLength(line) + 1
  {
  }

  /**
    A line with `<PRODUCT mode="new">` replaces the pending product with
    itself, discarding what was not written; the test comes before the
    `</PRODUCT>` test, so such a line never writes.
   */
  lemma OpenTagDiscards(st: MachineState, line: string, header: string, prefix: string)
    requires !Text.Contains(line, Catalog.OpenCatalog) && Text.Contains(line, ProductNew)
    ensures Step(st, line, header, prefix).product == line + "\n"
    ensures Step(st, line, header, prefix).files == st.files
  {
  }

  /**
    A file is written exactly when a line closes a product and pushes the
    accumulator past 90 MiB. The file holds the catalog text, the pending
    product with that line, and the footer; afterwards the product is
    empty, the accumulator is the header's size and the index has moved on.
   */
  lemma WriteExactly(st: MachineState, line: string, header: string, prefix: string)
    ensures var st' := Step(st, line, header, prefix);
      && (WritesOn(st, line) ==>
            && st'.files == st.files + [Catalog.OutputFile(Catalog.FileName(prefix, st.index),
                                          st.catalog + st.product + line + "\n" + Catalog.Footer)]
            && st'.product == ""
            && st'.size == Utf8.ByteLength(header)
            && st'.index == st.index + 1
            && st'.catalog == header)
      && (!WritesOn(st, line) ==> st'.files == st.files && st'.index == st.index && st'.catalog == st.catalog)
  {
    assert st.catalog + (st.product + line + "\n") + Catalog.Footer
        == st.catalog + st.product + line + "\n" + Catalog.Footer;
  }

  /**
    What holds after every line: the catalog text is always the header, the
    files are numbered from 1 with no gap, each one is the header, a
    non-empty product text and the footer, and the accumulator is at least
    the header's and the pending product's bytes together (it also counts
    discarded text).
   */
  ghost predicate Invariant(st: MachineState, header: string, prefix: string)
  {
    && st.catalog == header
    && st.index == |st.files| + 1
    && Catalog.NumberedFrom1(st.files, prefix)
    && (forall i :: 0 <= i < |st.files| ==> IsCatalogFile(st.files[i].content, header))
    && st.size >= Utf8.ByteLength(header) + Utf8.ByteLength(st.product)
  }

  /** `header`, then some non-empty text, then the footer. */
  ghost predicate IsCatalogFile(content: string, header: string)
  {
    && |content| > |header| + |Catalog.Footer|
    && Text.StartsWith(content, header)
    && Text.EndsWith(content, Catalog.Footer)
  }

  lemma CatalogFile(header: string, body: string)
    requires body != ""
    ensures IsCatalogFile(header + body + Catalog.Footer, header)
  {
    var c := header + body + Catalog.Footer;
    assert c[..|header|] == header;
    assert c[|c| - |Catalog.Footer|..] == Catalog.Footer;
  }

  lemma StepInvariant(st: MachineState, line: string, header: string, prefix: string)
    requires Invariant(st, header, prefix)
    ensures Invariant(Step(st, line, header, prefix), header, prefix)
  {
    if Text.Contains(line, Catalog.OpenCatalog) {
    } else if Text.Contains(line, ProductNew) {
      RestartKeeps(st, line, header, prefix);
    } else {
      AppendKeeps(st, line, header, prefix);
      var st1 := st.(product := st.product + line + "\n", size := st.size + Utf8.ByteLength(line) + 1);
      if Text.Contains(line, ProductClose) && st1.size > Limit {
        WriteKeeps(st1, header, prefix);
      }
    }
  }

  /** Replacing the pending product with a line keeps the invariant. */
  lemma RestartKeeps(st: MachineState, line: string, header: string, prefix: string)
    requires Invariant(st, header, prefix)
    ensures Invariant(st.(product := line + "\n", size := st.size + Utf8.ByteLength(line) + 1), header, prefix)
  {
    LineSize(line);
  }

  /** Appending a line to the pending product keeps the invariant. */
  lemma AppendKeeps(st: MachineState, line: string, header: string, prefix: string)
    requires Invariant(st, header, prefix)
    ensures Invariant(st.(product := st.product + line + "\n", size := st.size + Utf8.ByteLength(line) + 1),
                      header, prefix)
  {
    LineSize(line);
    Utf8.ByteLengthAppend(st.product, line + "\n");
    assert st.product + line + "\n" == st.product + (line + "\n");
  }

  /** Writing a non-empty pending product keeps the invariant. */
  lemma WriteKeeps(st: MachineState, header: string, prefix: string)
    requires Invariant(st, header, prefix) && st.product != ""
    ensures Invariant(WriteNextFile(st, header, prefix).(catalog := header), header, prefix)
  {
    CatalogFile(header, st.product);
  }

  lemma {:induction false} LoopInvariant(lines: seq<string>, header: string, prefix: string)
    ensures Invariant(Loop(lines, header, prefix), header, prefix)
  {
    if |lines| > 0 {
      LoopInvariant(lines[..|lines| - 1], header, prefix);
      StepInvariant(Loop(lines[..|lines| - 1], header, prefix), lines[|lines| - 1], header, prefix);
    }
  }

  /** At the end of the stream a file is written exactly when a product is pending. */
  lemma FinishWritesPending(st: MachineState, header: string, prefix: string)
    requires Invariant(st, header, prefix)
    ensures |Finish(st, header, prefix).files| == |st.files| + (if st.product != "" then 1 else 0)
    ensures st.product != "" ==>
      Finish(st, header, prefix).files[|st.files|].content == header + st.product + Catalog.Footer
    ensures Invariant(Finish(st, header, prefix), header, prefix)
  {
    if st.product != "" {
      CatalogFile(header, st.product);
    }
  }

  /**
    Every file the splitter returns is the header, a non-empty product text
    and the footer, and the files are named `${prefix}-1.xml`,
    `${prefix}-2.xml`, ... in order.
   */
  lemma SplitXmlFileShape(xmlFile: string, outputFileName: string,
                          headerChunks: seq<string>, bodyChunks: seq<string>)
    requires SplitXmlFile(xmlFile, outputFileName, headerChunks, bodyChunks).Success?
    ensures var files := SplitXmlFile(xmlFile, outputFileName, headerChunks, bodyChunks).value;
      var header := HeaderReader.ReadHeader(headerChunks).value;
      && Catalog.NumberedFrom1(files, Catalog.NamePrefix(xmlFile, outputFileName))
      && forall i :: 0 <= i < |files| ==> IsCatalogFile(files[i].content, header)
  {
    var header := HeaderReader.ReadHeader(headerChunks).value;
    var prefix := Catalog.NamePrefix(xmlFile, outputFileName);
    var lines := Lines.LinesOfChunks(bodyChunks);
    LoopInvariant(lines, header, prefix);
    FinishWritesPending(Loop(lines, header, prefix), header, prefix);
  }

  /** Without the header marker the splitter fails before handling any line. */
  lemma SplitXmlFileNeedsHeader(xmlFile: string, outputFileName: string,
                                headerChunks: seq<string>, bodyChunks: seq<string>)
    ensures SplitXmlFile(xmlFile, outputFileName, headerChunks, bodyChunks).Failure? <==>
      forall j :: !Text.OccursAt(Text.Flatten(headerChunks), Catalog.OpenCatalog, j)
  {
    HeaderReader.ReadHeaderShape(headerChunks);
  }
}

=== FILE: line_packer.dfy ===
/**
  `splitXMLFile` of index.js: the whole input (header included) arrives in
  chunks; each chunk is split into lines, and the lines are packed greedily
  into files ending with the footer. A line too large for any file is
  written alone; the first line that nearly fills a file gets a one-time
  flush; and the accumulator is set and then added to on overflow, so it
  ends at twice the line's size.
 */
module LinePacker {
  import Text
  import Utf8
  import Catalog
  import Lines

  /** A file as `writeNextFile` or the oversized path writes it: its index and the text before the footer. */
  datatype Written = Written(index: nat, body: string)

  /** The closure's variables, plus the files written so far in order. */
  datatype PackerState = PackerState(
    size: int,          // currentFileSize
    index: nat,         // fileIndex
    content: string,    // currentFileContent
    firstLine: bool,    // firstLine
    written: seq<Written>)

  /**
    The state before the first line (index.js:37-40): the counter is 0, the
    next index is 1, there is no content, the first line is still ahead and
    nothing is written.
   */
  const Init: PackerState := PackerState(0, 1, "", true, [])

  /** `writeNextFile`, lines 42-55: nothing on empty content; never touches the accumulator. */
  function WriteNextFile(st: PackerState): PackerState
  {
    if st.content == "" then st
    else st.(written := st.written + [Written(st.index, st.content)], content := "", index := st.index + 1)
  }

  /** The size a line counts for: its bytes plus the newline. */
  function LineSize(line: string): nat
  {
    Utf8.ByteLength(line) + 1
  }

  /** True when the line is handled by the oversized path (lines 64-71). */
  predicate Oversized(line: string, maxFileSize: int)
  {
    LineSize(line) > maxFileSize
  }

  /** True when the margin branch (lines 74-78) runs for this line. */
  predicate MarginFires(st: PackerState, line: string, maxFileSize: int)
  {
    !Oversized(line, maxFileSize) && st.firstLine && LineSize(line) > maxFileSize - 30
  }

  /** State after the margin branch, before the overflow test. */
  function AfterMargin(st: PackerState, line: string, maxFileSize: int): PackerState
  {
    if MarginFires(st, line, maxFileSize) then WriteNextFile(st).(firstLine := false) else st
  }

  /** One line of the `for (const line of lines)` loop, lines 61-86. */
  function Step(st: PackerState, line: string, maxFileSize: int): PackerState
  {
    var productSize := LineSize(line);
    if productSize > maxFileSize then
      var st1 := WriteNextFile(st);
      st1.(written := st1.written + [Written(st1.index, line + "\n")], index := st1.index + 1)
    else
      var st1 := AfterMargin(st, line, maxFileSize);
      var st2 := if st1.size + productSize > maxFileSize then WriteNextFile(st1).(size := productSize) else st1;
      st2.(content := st2.content + line + "\n", size := st2.size + productSize)
  }

  /** The state after every line of `lines` has been handled. */
  function Loop(lines: seq<string>, maxFileSize: int): PackerState
  {
    if |lines| == 0 then Init
    else Step(Loop(lines[..|lines| - 1], maxFileSize), lines[|lines| - 1], maxFileSize)
  }

  /** The `end` handler, lines 90-93. */
  function Finish(st: PackerState): PackerState
  {
    if st.content != "" then WriteNextFile(st) else st
  }

  /** Each written file: `${prefix}-${index}.xml` holding the body and the footer. */
  function Render(prefix: string, written: seq<Written>): (files: seq<Catalog.OutputFile>)
    ensures |files| == |written|
    ensures forall i :: 0 <= i < |written| ==>
      files[i] == Catalog.OutputFile(Catalog.FileName(prefix, written[i].index), written[i].body + Catalog.Footer)
  {
    seq(|written|, i requires 0 <= i < |written| =>
      Catalog.OutputFile(Catalog.FileName(prefix, written[i].index), written[i].body + Catalog.Footer))
  }

  /** `splitXMLFile(xmlFile, maxFileSize, outputFileName)` over the chunks the read stream delivers. */
  function SplitXmlFile(xmlFile: string, maxFileSize: int, outputFileName: string, chunks: seq<string>)
    : seq<Catalog.OutputFile>
  {
    var st := Finish(Loop(Lines.LinesOfChunks(chunks), maxFileSize));
    Render(Catalog.NamePrefix(xmlFile, outputFileName), st.written)
  }

  // ---------------------------------------------------------------------------
  // Properties
  // ---------------------------------------------------------------------------

  /** The bodies of the written files, in order. */
  function Bodies(written: seq<Written>): (bodies: seq<string>)
    ensures |bodies| == |written|
    ensures forall i :: 0 <= i < |written| ==> bodies[i] == written[i].body
  {
    seq(|written|, i requires 0 <= i < |written| => written[i].body)
  }

  lemma BodiesSnoc(written: seq<Written>, w: Written)
    ensures Bodies(written + [w]) == Bodies(written) + [w.body]
  {
  }

  /** `writeNextFile` does nothing when there is no content; otherwise it writes the content and clears it. */
  lemma WriteNextFileEffect(st: PackerState)
    ensures st.content == "" ==> WriteNextFile(st) == st
    ensures st.content != "" ==>
      && WriteNextFile(st).written == st.written + [Written(st.index, st.content)]
      && WriteNextFile(st).content == ""
      && WriteNextFile(st).index == st.index + 1
    ensures WriteNextFile(st).size == st.size && WriteNextFile(st).firstLine == st.firstLine
  {
  }

  /**
    An oversized line is written alone, as the line and its newline, right
    after the pending content is flushed; it never enters the content or
    the accumulator.
   */
  lemma OversizedWrittenAlone(st: PackerState, line: string, maxFileSize: int)
    requires Oversized(line, maxFileSize)
    ensures var st' := Step(st, line, maxFileSize);
      var flushed := if st.content == "" then [] else [Written(st.index, st.content)];
      && st'.written == st.written + flushed + [Written(st.index + |flushed|, line + "\n")]
      && st'.content == ""
      && st'.size == st.size
      && st'.index == st.index + |flushed| + 1
  {
  }

  /**
    On overflow the pending content is flushed before the line is appended,
    and the accumulator ends at twice the line's size: it is set to the
    size and then the size is added again.
   */
  lemma OverflowDoublesAccumulator(st: PackerState, line: string, maxFileSize: int)
    requires !Oversized(line, maxFileSize)
    requires AfterMargin(st, line, maxFileSize).size + LineSize(line) > maxFileSize
    ensures Step(st, line, maxFileSize).size == 2 * LineSize(line)
    ensures Step(st, line, maxFileSize).content == line + "\n"
  {
  }

  /** Otherwise the line is appended to the content and counted once. */
  lemma LineAppended(st: PackerState, line: string, maxFileSize: int)
    requires !Oversized(line, maxFileSize)
    requires AfterMargin(st, line, maxFileSize).size + LineSize(line) <= maxFileSize
    ensures Step(st, line, maxFileSize).content == AfterMargin(st, line, maxFileSize).content + line + "\n"
    ensures Step(st, line, maxFileSize).size == AfterMargin(st, line, maxFileSize).size + LineSize(line)
  {
  }

  /** Text of the lines, each followed by a newline. */
  function Newlined(lines: seq<string>): string
  {
    Catalog.Terminated(lines)
  }

  /**
    What holds after every line: the written bodies followed by the pending
    content are the lines handled, each with its newline, in order; the
    files are numbered from 1 with no gap; no body is empty.
   */
  ghost predicate Conserves(st: PackerState, handled: seq<string>)
  {
    && Text.Flatten(Bodies(st.written)) + st.content == Newlined(handled)
    && st.index == |st.written| + 1
    && (forall i :: 0 <= i < |st.written| ==> st.written[i].index == i + 1)
    && (forall i :: 0 <= i < |st.written| ==> st.written[i].body != "")
  }

  lemma WriteNextFileConserves(st: PackerState, handled: seq<string>)
    requires Conserves(st, handled)
    ensures Conserves(WriteNextFile(st), handled)
  {
    if st.content != "" {
      BodiesSnoc(st.written, Written(st.index, st.content));
      Text.FlattenSnoc(Bodies(st.written), st.content);
    }
  }

  /** Appending a line and its newline to the content keeps conservation for the lines handled so far plus that line. */
  lemma AppendConserves(st: PackerState, handled: seq<string>, line: string, size: int)
    requires Conserves(st, handled)
    ensures Conserves(st.(content := st.content + line + "\n", size := size), handled + [line])
  {
    Catalog.TerminatedSnoc(handled, line);
    assert Text.Flatten(Bodies(st.written)) + (st.content + line + "\n")
        == Text.Flatten(Bodies(st.written)) + st.content + line + "\n";
  }

  /** Writing an oversized line as its own file keeps conservation. */
  lemma OversizedConserves(st: PackerState, handled: seq<string>, line: string)
    requires Conserves(st, handled) && st.content == ""
    ensures Conserves(st.(written := st.written + [Written(st.index, line + "\n")], index := st.index + 1),
                      handled + [line])
  {
    Catalog.TerminatedSnoc(handled, line);
    BodiesSnoc(st.written, Written(st.index, line + "\n"));
    Text.FlattenSnoc(Bodies(st.written), line + "\n");
  }

  lemma StepConserves(st: PackerState, handled: seq<string>, line: string, maxFileSize: int)
    requires Conserves(st, handled)
    ensures Conserves(Step(st, line, maxFileSize), handled + [line])
  {
    WriteNextFileConserves(st, handled);
    if Oversized(line, maxFileSize) {
      OversizedConserves(WriteNextFile(st), handled, line);
    } else {
      var st1 := AfterMargin(st, line, maxFileSize);
      WriteNextFileConserves(st1, handled);
      var productSize := LineSize(line);
      var st2 := if st1.size + productSize > maxFileSize then WriteNextFile(st1).(size := productSize) else st1;
      AppendConserves(st2, handled, line, st2.size + productSize);
    }
  }

  lemma {:induction false} LoopConserves(lines: seq<string>, maxFileSize: int)
    ensures Conserves(Loop(lines, maxFileSize), lines)
  {
    if |lines| > 0 {
      var before := lines[..|lines| - 1];
      LoopConserves(before, maxFileSize);
      StepConserves(Loop(before, maxFileSize), before, lines[|lines| - 1], maxFileSize);
      assert before + [lines[|lines| - 1]] == lines;
    }
  }

  /**
    Every line reaches exactly one file, in input order, with none lost or
    duplicated: the bodies of all files, concatenated, are the lines each
    followed by a newline. No file is empty, and the indices run 1, 2, ...
   */
  lemma FinishConserves(lines: seq<string>, maxFileSize: int)
    ensures var written := Finish(Loop(lines, maxFileSize)).written;
      && Text.Flatten(Bodies(written)) == Newlined(lines)
      && (forall i :: 0 <= i < |written| ==> written[i].index == i + 1 && written[i].body != "")
  {
    var st := Loop(lines, maxFileSize);
    LoopConserves(lines, maxFileSize);
    WriteNextFileConserves(st, lines);
    if st.content == "" {
      assert Text.Flatten(Bodies(st.written)) + "" == Text.Flatten(Bodies(st.written));
    }
  }

  /** A body made of exactly one line and its newline. */
  ghost predicate IsSingleLine(body: string)
  {
    |body| > 0 && body[|body| - 1] == '\n' && '\n' !in body[..|body| - 1]
  }

  /**
    The accumulator never undercounts the pending content, so pending
    content stays within the limit; every written body is within the limit
    unless it is a single oversized line. The footer is not counted.
   */
  ghost predicate Bounded(st: PackerState, maxFileSize: int)
  {
    && st.size >= Utf8.ByteLength(st.content)
    && (st.content == "" || Utf8.ByteLength(st.content) <= maxFileSize)
    && forall i :: 0 <= i < |st.written| ==>
         Utf8.ByteLength(st.written[i].body) <= maxFileSize || IsSingleLine(st.written[i].body)
  }

  lemma NewlineLine(line: string)
    requires '\n' !in line
    ensures IsSingleLine(line + "\n")
    ensures Utf8.ByteLength(line + "\n") == LineSize(line)
  {
    assert (line + "\n")[..|line|] == line;
    Utf8.ByteLengthAppend(line, "\n");
  }

  lemma WriteNextFileBounded(st: PackerState, maxFileSize: int)
    requires Bounded(st, maxFileSize)
    ensures Bounded(WriteNextFile(st), maxFileSize)
  {
  }

  lemma AppendBounded(st: PackerState, line: string, maxFileSize: int)
    requires Bounded(st, maxFileSize) && '\n' !in line && !Oversized(line, maxFileSize)
    requires st.content == "" || st.size + LineSize(line) <= maxFileSize
    ensures Bounded(st.(content := st.content + line + "\n", size := st.size + LineSize(line)), maxFileSize)
  {
    NewlineLine(line);
    Utf8.ByteLengthAppend(st.content, line + "\n");
    assert st.content + line + "\n" == st.content + (line + "\n");
  }

  lemma StepBounded(st: PackerState, line: string, maxFileSize: int)
    requires Bounded(st, maxFileSize) && '\n' !in line
    ensures Bounded(Step(st, line, maxFileSize), maxFileSize)
  {
    WriteNextFileBounded(st, maxFileSize);
    if Oversized(line, maxFileSize) {
      NewlineLine(line);
    } else {
      FittingStepBounded(st, line, maxFileSize);
    }
  }

  /** The margin, overflow and append branches keep the bound. */
  lemma FittingStepBounded(st: PackerState, line: string, maxFileSize: int)
    requires Bounded(st, maxFileSize) && '\n' !in line && !Oversized(line, maxFileSize)
    ensures Bounded(Step(st, line, maxFileSize), maxFileSize)
  {
    WriteNextFileBounded(st, maxFileSize);
    var st1 := AfterMargin(st, line, maxFileSize);
    assert Bounded(st1, maxFileSize);
    WriteNextFileBounded(st1, maxFileSize);
    if st1.size + LineSize(line) > maxFileSize {
      AppendBounded(WriteNextFile(st1).(size := LineSize(line)), line, maxFileSize);
    } else {
      AppendBounded(st1, line, maxFileSize);
    }
  }

  lemma {:induction false} LoopBounded(lines: seq<string>, maxFileSize: int)
    requires forall i :: 0 <= i < |lines| ==> '\n' !in lines[i]
    ensures Bounded(Loop(lines, maxFileSize), maxFileSize)
  {
    if |lines| > 0 {
      LoopBounded(lines[..|lines| - 1], maxFileSize);
      StepBounded(Loop(lines[..|lines| - 1], maxFileSize), lines[|lines| - 1], maxFileSize);
    }
  }

  /** Number of lines for which the margin branch ran. */
  function MarginCount(lines: seq<string>, maxFileSize: int): nat
  {
    if |lines| == 0 then 0
    else
      var before := lines[..|lines| - 1];
      MarginCount(before, maxFileSize)
        + (if MarginFires(Loop(before, maxFileSize), lines[|lines| - 1], maxFileSize) then 1 else 0)
  }

  /**
    The margin branch clears `firstLine`, which nothing sets again, so it
    runs at most once per run: exactly once if `firstLine` is now false.
   */
  lemma {:induction false} MarginAtMostOnce(lines: seq<string>, maxFileSize: int)
    ensures MarginCount(lines, maxFileSize) == if Loop(lines, maxFileSize).firstLine then 0 else 1
  {
    if |lines| > 0 {
      MarginAtMostOnce(lines[..|lines| - 1], maxFileSize);
    }
  }

  /**
    The files `splitXMLFile` writes: named `${prefix}-1.xml`,
    `${prefix}-2.xml`, ... with no gap; each is a non-empty body followed
    by the footer; each body is within the limit or is a single oversized
    line; and the bodies together are the input's lines, each followed by
    a newline.
   */
  lemma SplitXmlFileShape(xmlFile: string, maxFileSize: int, outputFileName: string, chunks: seq<string>)
    ensures var files := SplitXmlFile(xmlFile, maxFileSize, outputFileName, chunks);
      var written := Finish(Loop(Lines.LinesOfChunks(chunks), maxFileSize)).written;
      && Catalog.NumberedFrom1(files, Catalog.NamePrefix(xmlFile, outputFileName))
      && |files| == |written|
      && (forall i :: 0 <= i < |files| ==>
            && files[i].content == written[i].body + Catalog.Footer
            && written[i].body != ""
            && (Utf8.ByteLength(written[i].body) <= maxFileSize || IsSingleLine(written[i].body)))
      && Text.Flatten(Bodies(written)) == Newlined(Lines.LinesOfChunks(chunks))
  {
    var lines := Lines.LinesOfChunks(chunks);
    var st := Loop(lines, maxFileSize);
    FinishConserves(lines, maxFileSize);
    LoopBounded(lines, maxFileSize);
    assert Bounded(Finish(st), maxFileSize);
  }
}

=== FILE: lines.dfy ===
/**
  `chunk.split(/\r?\n/)`, which both line-oriented splitters apply to every
  chunk they read, and the reverse direction: joining lines with `\n`.
 */
module Lines {

  /**
    `s.split(/\r?\n/)`: a separator is a `\n`, together with the `\r` right
    before it when there is one. Splitting the empty string gives `[""]`.
   */
  function SplitLines(s: string): (lines: seq<string>)
    ensures |lines| >= 1
    ensures forall i :: 0 <= i < |lines| ==> '\n' !in lines[i]
  {
    if |s| == 0 then [""]
    else if s[0] == '\n' then [""] + SplitLines(s[1..])
    else if |s| >= 2 && s[0] == '\r' && s[1] == '\n' then [""] + SplitLines(s[2..])
    else
      var rest := SplitLines(s[1..]);
      [[s[0]] + rest[0]] + rest[1..]
  }

  /** `lines.join(sep)`. */
  function Join(lines: seq<string>, sep: string): string
  {
    if |lines| == 0 then ""
    else if |lines| == 1 then lines[0]
    else lines[0] + sep + Join(lines[1..], sep)
  }

  /** `s` with every `\r\n` replaced by `\n`, scanning left to right. */
  function NormalizeNewlines(s: string): string
  {
    if |s| == 0 then ""
    else if |s| >= 2 && s[0] == '\r' && s[1] == '\n' then "\n" + NormalizeNewlines(s[2..])
    else [s[0]] + NormalizeNewlines(s[1..])
  }

  /** Prepending a character to the first line prepends it to the joined text. */
  lemma JoinConsFirst(c: char, first: string, rest: seq<string>, sep: string)
    ensures Join([[c] + first] + rest, sep) == [c] + Join([first] + rest, sep)
  {
    if |rest| > 0 {
      assert ([[c] + first] + rest)[1..] == rest;
      assert ([first] + rest)[1..] == rest;
    }
  }

  /** Rejoining the split lines with `\n` gives the chunk with `\r\n` normalised to `\n`. */
  lemma {:induction false} JoinSplitLines(s: string)
    ensures Join(SplitLines(s), "\n") == NormalizeNewlines(s)
  {
    if |s| == 0 {
    } else if s[0] == '\n' {
      JoinSplitLines(s[1..]);
      assert ([""] + SplitLines(s[1..]))[1..] == SplitLines(s[1..]);
    } else if |s| >= 2 && s[0] == '\r' && s[1] == '\n' {
      JoinSplitLines(s[2..]);
      assert ([""] + SplitLines(s[2..]))[1..] == SplitLines(s[2..]);
    } else {
      var rest := SplitLines(s[1..]);
      JoinSplitLines(s[1..]);
      JoinConsFirst(s[0], rest[0], rest[1..], "\n");
      assert [rest[0]] + rest[1..] == rest;
    }
  }

  /** A line followed by `\n` splits off as one line, provided it holds no `\n` and does not end in `\r`. */
  lemma {:induction false} SplitLinesCons(line: string, t: string)
    requires '\n' !in line
    requires |line| == 0 || line[|line| - 1] != '\r'
    ensures SplitLines(line + "\n" + t) == [line] + SplitLines(t)
  {
    var s := line + "\n" + t;
    if |line| == 0 {
      assert s[1..] == t;
    } else {
      var tail := line[1..];
      assert s[1..] == tail + "\n" + t;
      assert line[0] != '\n';
      if |tail| > 0 {
        assert tail[0] == line[1];
        assert tail[|tail| - 1] == line[|line| - 1];
        assert '\n' !in tail by {
          forall i | 0 <= i < |tail| ensures tail[i] != '\n' {
            assert tail[i] == line[i + 1];
          }
        }
      }
      SplitLinesCons(tail, t);
      assert [line[0]] + tail == line;
    }
  }

  /** A last line with no `\n` splits into itself. */
  lemma {:induction false} SplitLinesNoNewline(line: string)
    requires '\n' !in line
    ensures SplitLines(line) == [line]
  {
    if |line| > 0 {
      var tail := line[1..];
      assert '\n' !in tail by {
        forall i | 0 <= i < |tail| ensures tail[i] != '\n' {
          assert tail[i] == line[i + 1];
        }
      }
      SplitLinesNoNewline(tail);
      assert [line[0]] + tail == line;
    }
  }

  /**
    Splitting lines joined with `\n` gives them back, as long as none holds a
    `\n` and none but the last ends in `\r` (whose `\r\n` would be taken as
    one separator).
   */
  lemma {:induction false} SplitJoinLines(lines: seq<string>)
    requires |lines| >= 1
    requires forall i :: 0 <= i < |lines| ==> '\n' !in lines[i]
    requires forall i :: 0 <= i < |lines| - 1 ==> |lines[i]| == 0 || lines[i][|lines[i]| - 1] != '\r'
    ensures SplitLines(Join(lines, "\n")) == lines
  {
    if |lines| == 1 {
      SplitLinesNoNewline(lines[0]);
    } else {
      SplitJoinLines(lines[1..]);
      SplitLinesCons(lines[0], Join(lines[1..], "\n"));
      assert [lines[0]] + lines[1..] == lines;
    }
  }

  /** All lines of a sequence of chunks, each chunk split on its own. */
  function LinesOfChunks(chunks: seq<string>): (lines: seq<string>)
    ensures forall i :: 0 <= i < |lines| ==> '\n' !in lines[i]
    ensures |lines| >= |chunks|
  {
    if |chunks| == 0 then [] else SplitLines(chunks[0]) + LinesOfChunks(chunks[1..])
  }
}

=== FILE: numerals.dfy ===
/**
  Integer text: the decimal rendering used in output file names
  (`${fileIndex}`) and JavaScript's `parseInt` with no radix, used for
  `--size=`.
 */
module Numerals {
  import opened Wrappers
  import Text

  predicate IsDecimalDigit(c: char) {
    '0' <= c <= '9'
  }

  predicate IsHexDigit(c: char) {
    IsDecimalDigit(c) || 'a' <= c <= 'f' || 'A' <= c <= 'F'
  }

  /** A digit of the given radix (10 or 16). */
  predicate IsDigitIn(c: char, hex: bool) {
    if hex then IsHexDigit(c) else IsDecimalDigit(c)
  }

  function DigitValue(c: char): (d: nat)
    requires IsHexDigit(c)
    ensures d < 16
    ensures IsDecimalDigit(c) ==> d < 10
  {
    if IsDecimalDigit(c) then c as int - '0' as int
    else if 'a' <= c <= 'f' then c as int - 'a' as int + 10
    else c as int - 'A' as int + 10
  }

  function DigitChar(d: nat): (c: char)
    requires d < 10
    ensures IsDecimalDigit(c) && DigitValue(c) == d
  {
    ('0' as int + d) as char
  }

  /** Value of a digit string in base 10 or 16, most significant digit first. */
  function ValueOf(s: string, hex: bool): nat
    requires forall i :: 0 <= i < |s| ==> IsDigitIn(s[i], hex)
  {
    if |s| == 0 then 0
    else
      var last := s[|s| - 1];
      assert IsDigitIn(last, hex);
      ValueOf(s[..|s| - 1], hex) * (if hex then 16 else 10) + DigitValue(last)
  }

  /** Decimal rendering of a natural number, as a template literal prints it. */
  function Decimal(n: nat): (r: string)
    ensures |r| >= 1
    ensures forall i :: 0 <= i < |r| ==> IsDecimalDigit(r[i])
    ensures r[0] == '0' ==> r == "0"
  {
    if n < 10 then [DigitChar(n)] else Decimal(n / 10) + [DigitChar(n % 10)]
  }

  /** Reading the rendering back gives the number. */
  lemma {:induction false} DecimalRoundTrip(n: nat)
    ensures ValueOf(Decimal(n), false) == n
  {
    if n >= 10 {
      var r := Decimal(n);
      assert r[..|r| - 1] == Decimal(n / 10);
      DecimalRoundTrip(n / 10);
    }
  }

  /** Different numbers render differently. */
  lemma DecimalInjective(m: nat, n: nat)
    requires Decimal(m) == Decimal(n)
    ensures m == n
  {
    DecimalRoundTrip(m);
    DecimalRoundTrip(n);
  }

  /** Length of the longest prefix of `s` made of digits of the radix. */
  function DigitRun(s: string, hex: bool): (k: nat)
    ensures k <= |s|
    ensures forall i :: 0 <= i < k ==> IsDigitIn(s[i], hex)
    ensures k < |s| ==> !IsDigitIn(s[k], hex)
  {
    if |s| == 0 || !IsDigitIn(s[0], hex) then 0 else 1 + DigitRun(s[1..], hex)
  }

  /** True when `s` starts with the `0x` or `0X` that switches `parseInt` to radix 16. */
  predicate HasHexPrefix(s: string) {
    |s| >= 2 && s[0] == '0' && (s[1] == 'x' || s[1] == 'X')
  }

  /**
    The unsigned part of `parseInt`: a `0x`/`0X` prefix selects radix 16,
    and the longest run of digits that follows is the value; `None` when
    that run is empty.
   */
  function ParseMagnitude(u: string): (r: Option<nat>)
  {
    var hex := HasHexPrefix(u);
    var digits := if hex then u[2..] else u;
    var k := DigitRun(digits, hex);
    if k == 0 then None else Some(ValueOf(digits[..k], hex))
  }

  /**
    `parseInt(s)` with no radix: leading whitespace is skipped, one `+` or
    `-` is read, then the magnitude. `None` stands for `NaN`.
   */
  function ParseInt(s: string): (r: Option<int>)
  {
    var t := Text.TrimStart(s);
    var negative := |t| > 0 && t[0] == '-';
    var u := if |t| > 0 && (t[0] == '-' || t[0] == '+') then t[1..] else t;
    match ParseMagnitude(u)
    case None => None
    case Some(v) => Some(if negative then -(v as int) else v as int)
  }

  /**
    The magnitude reader reads back a rendered number, ignoring any
    non-digit tail; after a lone `0`, an `x` or `X` would start a hex prefix.
   */
  lemma MagnitudeDecimal(n: nat, tail: string)
    requires tail == [] || (!IsDecimalDigit(tail[0]) && (n != 0 || (tail[0] != 'x' && tail[0] != 'X')))
    ensures ParseMagnitude(Decimal(n) + tail) == Some(n)
  {
    var s := Decimal(n) + tail;
    var d := Decimal(n);
    assert forall i :: 0 <= i < |d| ==> IsDigitIn(s[i], false);
    assert |d| < |s| ==> !IsDigitIn(s[|d|], false);
    DecimalRoundTrip(n);
    assert !HasHexPrefix(s) by {
      if n != 0 {
        assert d != "0";
        assert s[0] == d[0];
      } else {
        assert d == "0";
      }
    }
    var k := DigitRun(s, false);
    assert k == |d|;
    assert s[..k] == d;
  }

  /** After a lone `0`, an `x` switches to radix 16, so `"0x"` with no hex digit is `NaN`. */
  lemma ZeroXIsNaN()
    ensures ParseInt("0x") == None && ParseInt("0xg") == None
  {
    Text.TrimStartNoSpace("0x");
    Text.TrimStartNoSpace("0xg");
    assert HasHexPrefix("0x") && HasHexPrefix("0xg");
  }

  /**
    `parseInt` reads back a rendered number, ignoring any non-digit tail
    (for `0`, a tail not starting with `x` or `X`).
   */
  lemma ParseIntDecimal(n: nat, tail: string)
    requires tail == [] || (!IsDecimalDigit(tail[0]) && (n != 0 || (tail[0] != 'x' && tail[0] != 'X')))
    ensures ParseInt(Decimal(n) + tail) == Some(n)
  {
    var s := Decimal(n) + tail;
    assert IsDecimalDigit(s[0]) by { assert s[0] == Decimal(n)[0]; }
    Text.TrimStartNoSpace(s);
    MagnitudeDecimal(n, tail);
  }

  /** A leading minus sign negates the value `parseInt` reads. */
  lemma ParseIntNegative(n: nat, tail: string)
    requires tail == [] || (!IsDecimalDigit(tail[0]) && (n != 0 || (tail[0] != 'x' && tail[0] != 'X')))
    ensures ParseInt("-" + Decimal(n) + tail) == Some(-(n as int))
  {
    MinusPrefix(Decimal(n), tail);
    MagnitudeDecimal(n, tail);
    ParseIntMinus("-" + Decimal(n) + tail, n);
  }

  /** Dropping the sign of a signed text leaves the rest. */
  lemma MinusPrefix(d: string, tail: string)
    ensures ("-" + d + tail)[0] == '-' && ("-" + d + tail)[1..] == d + tail
  {
  }

  /** With a leading minus, `parseInt` is the negated magnitude of the rest. */
  lemma ParseIntMinus(s: string, v: nat)
    requires |s| > 0 && s[0] == '-' && ParseMagnitude(s[1..]) == Some(v)
    ensures ParseInt(s) == Some(-(v as int))
  {
    Text.TrimStartNoSpace(s);
  }

  /**
    `parseInt` gives `NaN` for text holding no decimal digit: without a `0`
    there is no `0x` prefix, so the radix is 10 and the digit run is empty.
   */
  lemma ParseIntNaN(s: string)
    requires forall i :: 0 <= i < |s| ==> !IsDecimalDigit(s[i])
    ensures ParseInt(s) == None
  {
    var t := Text.TrimStart(s);
    assert t == s[|s| - |t|..];
    var u := if |t| > 0 && (t[0] == '-' || t[0] == '+') then t[1..] else t;
    assert u == s[|s| - |u|..];
    assert !HasHexPrefix(u);
    assert |u| > 0 ==> !IsDigitIn(u[0], false);
  }
}

=== FILE: record_splitter.dfy ===
/**
  `splitXMLFile` of todolux-splitter.js: the whole input is read at once,
  the header is sliced off through the first `<T_NEW_CATALOG>`, products
  are extracted with the global, non-greedy match
  `/<PRODUCT(?:\s+mode="new")?>(.*?)<\/PRODUCT>/gs`, and the products are
  packed greedily by UTF-8 byte length into files that each repeat the
  header and end with the footer.
 */
module RecordSplitter {
  import opened Wrappers
  import Text
  import Utf8
  import Catalog

  const ProductOpen: string := "<PRODUCT"
  const ModeNew: string := "mode=\"new\">"
  const ProductClose: string := "</PRODUCT>"

  /** The ways `splitXMLFile` can fail before writing anything. */
  datatype SplitError =
    /** `match` found no product and returned `null`, so `for (… of products)` throws. */
    NoProducts

  // ---------------------------------------------------------------------------
  // Product extraction: the regular expression as a leftmost scanner
  // ---------------------------------------------------------------------------

  /** Length of the run of `\s` characters starting at `i`. */
  function SpaceRun(s: string, i: nat): (k: nat)
    requires i <= |s|
    ensures i + k <= |s|
    ensures forall j :: i <= j < i + k ==> Text.IsJsSpace(s[j])
    ensures i + k < |s| ==> !Text.IsJsSpace(s[i + k])
    decreases |s| - i
  {
    if i < |s| && Text.IsJsSpace(s[i]) then 1 + SpaceRun(s, i + 1) else 0
  }

  /**
    Length of `<PRODUCT(?:\s+mode="new")?>` matched at `p`, if it matches
    there. `\s+` is greedy and `mode` cannot start with a space, so the
    space run is taken whole and there is nothing to backtrack into.
   */
  function OpenTagLength(s: string, p: nat): (r: Option<nat>)
    ensures r.Some? ==> 9 <= r.value && p + r.value <= |s|
  {
    if !Text.OccursAt(s, ProductOpen, p) then None
    else if Text.OccursAt(s, ">", p + 8) then Some(9)
    else
      var k := SpaceRun(s, p + 8);
      if k > 0 && Text.OccursAt(s, ModeNew, p + 8 + k) then Some(8 + k + 11) else None
  }

  /**
    A matched opening tag is `<PRODUCT>`, or `<PRODUCT` followed by white
    space and `mode="new">`; either way it holds no `<` after the first.
   */
  lemma OpenTagShape(s: string, p: nat)
    requires OpenTagLength(s, p).Some?
    ensures Text.OccursAt(s, ProductOpen, p) && s[p + OpenTagLength(s, p).value - 1] == '>'
    ensures var k := OpenTagLength(s, p).value;
      k == 9 || (k > 19 && Text.OccursAt(s, ModeNew, p + k - 11))
    ensures var k := OpenTagLength(s, p).value;
      k > 9 ==> forall j :: p + 8 <= j < p + k - 11 ==> Text.IsJsSpace(s[j])
    ensures forall j :: p < j < p + OpenTagLength(s, p).value ==> s[j] != '<'
  {
    assert forall x :: 1 <= x < |ProductOpen| ==> ProductOpen[x] != '<';
    NoOpeningBracket(s, ProductOpen, p, 1);
    if Text.OccursAt(s, ">", p + 8) {
      Text.OccursAtChar(s, ">", p + 8, 0);
    } else {
      var n := SpaceRun(s, p + 8);
      assert OpenTagLength(s, p) == Some(8 + n + 11);
      assert forall x :: 0 <= x < |ModeNew| ==> ModeNew[x] != '<';
      NoOpeningBracket(s, ModeNew, p + 8 + n, 0);
      Text.OccursAtChar(s, ModeNew, p + 8 + n, 10);
    }
  }

  /** Where `pat` occurs, its characters from `from` on are not `<` when the pattern's are not. */
  lemma NoOpeningBracket(s: string, pat: string, i: nat, from: nat)
    requires Text.OccursAt(s, pat, i)
    requires forall x :: from <= x < |pat| ==> pat[x] != '<'
    ensures forall j :: i + from <= j < i + |pat| ==> s[j] != '<'
  {
    forall j | i + from <= j < i + |pat|
      ensures s[j] != '<'
    {
      Text.OccursAtChar(s, pat, i, j - i);
    }
  }

  /**
    End of the regular expression's match starting at `p`: the opening tag,
    then the lazy `(.*?)` (the `s` flag lets `.` cross newlines), then the
    first `</PRODUCT>` after the tag.
   */
  function MatchAt(s: string, p: nat): (r: Option<nat>)
    ensures r.Some? ==> p + 19 <= r.value <= |s|
  {
    match OpenTagLength(s, p)
    case None => None
    case Some(k) =>
      match Text.IndexOfFrom(s, ProductClose, p + k)
      case None => None
      case Some(c) => Some(c + |ProductClose|)
  }

  /**
    A record with no closing tag is not dropped when another record
    follows: the lazy body runs on to the next record's closing tag, and
    the two records come out as one product. The record opened at `p` has
    no `</PRODUCT>` before the record opened at `q`.
   */
  lemma UnclosedRecordMerges(s: string, p: nat, q: nat, e: nat)
    requires OpenTagLength(s, p).Some? && p + OpenTagLength(s, p).value <= q
    requires forall j :: p + OpenTagLength(s, p).value <= j < q ==> !Text.OccursAt(s, ProductClose, j)
    requires MatchAt(s, q) == Some(e)
    ensures MatchAt(s, p) == Some(e)
  {
    var k := OpenTagLength(s, p).value;
    MatchParts(s, q, e);
    var k2 := OpenTagLength(s, q).value;
    var c := e - 10;
    OpenTagCloseFree(s, q);
    CloseFreeAcross(s, p + k, q, q + k2, c);
    Text.FirstOccurrenceFrom(s, ProductClose, p + k, c);
    MatchFromClose(s, p, k, c);
  }

  /** Stretches free of closing tags that meet make one stretch, up to the next closing tag. */
  lemma CloseFreeAcross(s: string, lo: nat, q: nat, q2: nat, c: nat)
    requires lo <= q <= q2
    requires forall j :: lo <= j < q ==> !Text.OccursAt(s, ProductClose, j)
    requires forall j :: q <= j < q2 ==> !Text.OccursAt(s, ProductClose, j)
    requires Text.IndexOfFrom(s, ProductClose, q2) == Some(c)
    ensures forall j :: lo <= j < c ==> !Text.OccursAt(s, ProductClose, j)
  {
    forall j | lo <= j < c
      ensures !Text.OccursAt(s, ProductClose, j)
    {
      if j < q {
      } else if j < q2 {
      } else {
      }
    }
  }

  /** An opening tag and the first closing tag after it make a match. */
  lemma MatchFromClose(s: string, p: nat, k: nat, c: nat)
    requires OpenTagLength(s, p) == Some(k)
    requires Text.IndexOfFrom(s, ProductClose, p + k) == Some(c)
    ensures MatchAt(s, p) == Some(c + |ProductClose|)
  {
    var r := MatchAt(s, p);
    assert r == Some(c + |ProductClose|);
  }

  /** No `</PRODUCT>` starts inside an opening tag. */
  lemma OpenTagCloseFree(s: string, q: nat)
    requires OpenTagLength(s, q).Some?
    ensures forall j :: q <= j < q + OpenTagLength(s, q).value ==> !Text.OccursAt(s, ProductClose, j)
  {
    OpenTagShape(s, q);
    Text.OccursAtChar(s, ProductOpen, q, 1);
    forall j | q <= j < q + OpenTagLength(s, q).value
      ensures !Text.OccursAt(s, ProductClose, j)
    {
      if j == q {
        Text.NotOccursAt(s, ProductClose, j, 1);
      } else {
        Text.NotOccursAt(s, ProductClose, j, 0);
      }
    }
  }

  /** For instance, `<PRODUCT>a` followed by `<PRODUCT>b</PRODUCT>` is one match of the whole text. */
  lemma UnclosedRecordMergesExample()
    ensures MatchAt("<PRODUCT>a<PRODUCT>b</PRODUCT>", 0) == Some(30)
  {
    var s := "<PRODUCT>a<PRODUCT>b</PRODUCT>";
    assert s[..8] == ProductOpen && s[8..9] == ">";
    assert OpenTagLength(s, 0) == Some(9);
    assert Text.OccursAt(s, ProductClose, 20);
    forall j | 9 <= j < 20
      ensures !Text.OccursAt(s, ProductClose, j)
    {
      Text.NotOccursAt(s, ProductClose, j, 1);
    }
    assert Text.IndexOfFrom(s, ProductClose, 9) == Some(20);
  }

  /** A matched span `[start, end)` of the input. */
  datatype Span = Span(start: nat, end: nat)

  /** Every match recorded in the table ends after it starts and within the text. */
  predicate Progressive(table: seq<Option<nat>>) {
    forall q :: 0 <= q < |table| && table[q].Some? ==> q < table[q].value <= |table|
  }

  /** The outcome of trying the pattern at each position of `s`. */
  function MatchTable(s: string): (table: seq<Option<nat>>)
    ensures |table| == |s| && Progressive(table)
    ensures forall q :: 0 <= q < |s| ==> table[q] == MatchAt(s, q)
  {
    seq(|s|, q requires 0 <= q < |s| => MatchAt(s, q))
  }

  /**
    The global match from position `p` on: try to match at each position in
    turn; after a match, resume at its end. The spans are matches, in input
    order, and never overlap.
   */
  function Scan(table: seq<Option<nat>>, p: nat): (spans: seq<Span>)
    requires Progressive(table)
    ensures forall i :: 0 <= i < |spans| ==>
      p <= spans[i].start < |table| && table[spans[i].start] == Some(spans[i].end)
    ensures forall i, j :: 0 <= i < j < |spans| ==> spans[i].end <= spans[j].start
    decreases |table| - p
  {
    if p >= |table| then []
    else
      match table[p]
      case Some(e) => [Span(p, e)] + Scan(table, e)
      case None => Scan(table, p + 1)
  }

  /** Some span of `spans` contains position `q`. */
  ghost predicate Covers(spans: seq<Span>, q: nat) {
    exists i :: 0 <= i < |spans| && spans[i].start <= q < spans[i].end
  }

  lemma CoversCons(sp: Span, rest: seq<Span>, q: nat)
    requires Covers(rest, q) || sp.start <= q < sp.end
    ensures Covers([sp] + rest, q)
  {
    if sp.start <= q < sp.end {
      assert ([sp] + rest)[0] == sp;
    } else {
      var i :| 0 <= i < |rest| && rest[i].start <= q < rest[i].end;
      assert ([sp] + rest)[i + 1] == rest[i];
    }
  }

  /**
    No match is skipped: every position from `p` on where the pattern
    matches is the start of a returned span or lies inside one.
   */
  lemma {:induction false} ScanComplete(table: seq<Option<nat>>, p: nat, q: nat)
    requires Progressive(table)
    requires p <= q < |table| && table[q].Some?
    ensures Covers(Scan(table, p), q)
    decreases |table| - p
  {
    match table[p]
    case Some(e) =>
      if e <= q {
        ScanComplete(table, e, q);
      }
      CoversCons(Span(p, e), Scan(table, e), q);
    case None =>
      ScanComplete(table, p + 1, q);
  }

  /** The text of each span: `section.match(regex)` when it is not `null`. */
  function SpanTexts(s: string, spans: seq<Span>): (texts: seq<string>)
    requires forall i :: 0 <= i < |spans| ==> spans[i].start <= spans[i].end <= |s|
    ensures |texts| == |spans|
    ensures forall i :: 0 <= i < |spans| ==> texts[i] == s[spans[i].start..spans[i].end]
  {
    seq(|spans|, i requires 0 <= i < |spans| => s[spans[i].start..spans[i].end])
  }

  /** `section.match(regex)`, with `null` (no match) as the error `for … of` then throws. */
  function ExtractProducts(section: string): (r: Result<seq<string>, SplitError>)
    ensures r.Failure? <==> forall q :: MatchAt(section, q).None?
    ensures r.Success? ==> forall i :: 0 <= i < |r.value| ==> IsProduct(r.value[i])
  {
    var table := MatchTable(section);
    var spans := Scan(table, 0);
    if |spans| == 0 then
      assert forall q :: MatchAt(section, q).None? by {
        forall q | MatchAt(section, q).Some?
          ensures false
        {
          ScanComplete(table, 0, q);
        }
      }
      Failure(NoProducts)
    else
      var texts := SpanTexts(section, spans);
      assert MatchAt(section, spans[0].start).Some?;
      assert forall i :: 0 <= i < |texts| ==> IsProduct(texts[i]) by {
        forall i | 0 <= i < |texts|
          ensures IsProduct(texts[i])
        {
          MatchIsProduct(section, spans[i].start, spans[i].end);
        }
      }
      Success(texts)
  }

  /**
    What every extracted product looks like: it opens with the product tag
    (`<PRODUCT>` or `<PRODUCT`, spaces, `mode="new">`), ends with
    `</PRODUCT>`, and holds `</PRODUCT>` nowhere else.
   */
  ghost predicate IsProduct(m: string) {
    && OpenTagLength(m, 0).Some?
    && Text.EndsWith(m, ProductClose)
    && forall j :: 0 <= j < |m| - |ProductClose| ==> !Text.OccursAt(m, ProductClose, j)
  }

  /** The text of a match has the shape of a product. */
  lemma MatchIsProduct(s: string, q: nat, e: nat)
    requires MatchAt(s, q) == Some(e)
    ensures IsProduct(s[q..e])
  {
    MatchParts(s, q, e);
    var k := OpenTagLength(s, q).value;
    SliceParts(s, q, k, e - 10, e);
    ProductOfParts(s[q..e], k, e - 10 - q);
  }

  /**
    The converse of `MatchIsProduct`: a slice with the shape of a product
    is exactly the match starting there.
   */
  lemma ProductIsMatch(s: string, q: nat, e: nat)
    requires q <= e <= |s| && IsProduct(s[q..e])
    ensures MatchAt(s, q) == Some(e)
  {
    ProductInText(s, q, e);
    CloseToMatch(s, q, OpenTagLength(s, q).value, e - |ProductClose|);
  }

  /** A product slice's opening tag and closing tag are tags of the whole text, with no closing tag between. */
  lemma ProductInText(s: string, q: nat, e: nat)
    requires q <= e <= |s| && IsProduct(s[q..e])
    ensures OpenTagLength(s, q).Some? && q + OpenTagLength(s, q).value <= e - |ProductClose|
    ensures Text.OccursAt(s, ProductClose, e - |ProductClose|)
    ensures forall j :: q + OpenTagLength(s, q).value <= j < e - |ProductClose| ==> !Text.OccursAt(s, ProductClose, j)
  {
    ProductShape(s[q..e]);
    var k := OpenTagLength(s[q..e], 0).value;
    OpenTagFromSlice(s, q, e, k);
    SliceCloses(s, q, e, k);
  }

  /** The slice's only closing tag, at its end, is the first one after `q + k` in the whole text. */
  lemma SliceCloses(s: string, q: nat, e: nat, k: nat)
    requires q <= e <= |s| && k + |ProductClose| <= e - q
    requires Text.OccursAt(s[q..e], ProductClose, e - q - |ProductClose|)
    requires forall j :: 0 <= j < e - q - |ProductClose| ==> !Text.OccursAt(s[q..e], ProductClose, j)
    ensures Text.OccursAt(s, ProductClose, e - |ProductClose|)
    ensures forall j :: q + k <= j < e - |ProductClose| ==> !Text.OccursAt(s, ProductClose, j)
  {
    Text.OccursInSlice(s, q, e, ProductClose, e - q - |ProductClose|);
    CloseFreeFromSlice(s, q, e, k, e - q - |ProductClose|);
  }

  /** An opening tag and a closing tag with none between them make a match. */
  lemma CloseToMatch(s: string, q: nat, k: nat, c: nat)
    requires OpenTagLength(s, q) == Some(k) && q + k <= c
    requires Text.OccursAt(s, ProductClose, c)
    requires forall j :: q + k <= j < c ==> !Text.OccursAt(s, ProductClose, j)
    ensures MatchAt(s, q) == Some(c + |ProductClose|)
  {
    Text.FirstOccurrenceFrom(s, ProductClose, q + k, c);
    MatchFromClose(s, q, k, c);
  }

  /** A product's closing tag comes after its opening tag, and no other closing tag does. */
  lemma ProductShape(m: string)
    requires IsProduct(m)
    ensures OpenTagLength(m, 0).Some? && OpenTagLength(m, 0).value + |ProductClose| <= |m|
    ensures Text.OccursAt(m, ProductClose, |m| - |ProductClose|)
    ensures forall j :: 0 <= j < |m| - |ProductClose| ==> !Text.OccursAt(m, ProductClose, j)
  {
    assert m[|m| - 10..] == ProductClose;
    OpenTagCloseFree(m, 0);
  }

  /** Where a slice has no closing tag, neither has the whole text. */
  lemma CloseFreeFromSlice(s: string, q: nat, e: nat, lo: nat, hi: nat)
    requires q <= e <= |s| && lo <= hi && hi + |ProductClose| <= e - q
    requires forall j :: 0 <= j < hi ==> !Text.OccursAt(s[q..e], ProductClose, j)
    ensures forall j :: q + lo <= j < q + hi ==> !Text.OccursAt(s, ProductClose, j)
  {
    forall j | q + lo <= j < q + hi
      ensures !Text.OccursAt(s, ProductClose, j)
    {
      Text.OccursInSlice(s, q, e, ProductClose, j - q);
    }
  }

  /** An opening tag at the start of a slice is the same opening tag in the whole text. */
  lemma OpenTagFromSlice(s: string, q: nat, e: nat, k: nat)
    requires q <= e <= |s| && OpenTagLength(s[q..e], 0) == Some(k)
    ensures OpenTagLength(s, q) == Some(k)
  {
    Text.OccursInSlice(s, q, e, ProductOpen, 0);
    Text.OccursInSlice(s, q, e, ">", 8);
    if k > 9 {
      var n := SpaceRun(s[q..e], 8);
      assert k == 8 + n + 11 && n > 0 && Text.OccursAt(s[q..e], ModeNew, 8 + n);
      LongTagFromSlice(s, q, e, n);
    }
  }

  /** The long form's space run and `mode="new">` carry over from the slice to the whole text. */
  lemma LongTagFromSlice(s: string, q: nat, e: nat, n: nat)
    requires q + 8 + n + |ModeNew| <= e <= |s| && n > 0
    requires SpaceRun(s[q..e], 8) == n && Text.OccursAt(s[q..e], ModeNew, 8 + n)
    ensures SpaceRun(s, q + 8) == n && Text.OccursAt(s, ModeNew, q + 8 + n)
  {
    SpaceRunFromSlice(s, q, e, 8, n);
    Text.OccursInSlice(s, q, e, ModeNew, 8 + n);
  }

  /** A space run that stops inside a slice is the same run in the whole text. */
  lemma {:induction false} SpaceRunFromSlice(s: string, q: nat, e: nat, a: nat, n: nat)
    requires q + a + n < e <= |s|
    requires SpaceRun(s[q..e], a) == n
    ensures SpaceRun(s, q + a) == n
    decreases n
  {
    assert s[q..e][a] == s[q + a];
    if n > 0 {
      SpaceRunFromSlice(s, q, e, a + 1, n - 1);
    }
  }

  /** A match is an opening tag followed by the first closing tag after it. */
  lemma MatchParts(s: string, q: nat, e: nat)
    requires MatchAt(s, q) == Some(e)
    ensures e >= 10 && OpenTagLength(s, q).Some?
    ensures Text.IndexOfFrom(s, ProductClose, q + OpenTagLength(s, q).value) == Some(e - 10)
  { }

  /**
    The slice from an opening tag through the first closing tag after it
    opens with that tag, and holds the closing tag at its end and nowhere
    before.
   */
  lemma SliceParts(s: string, q: nat, k: nat, c: nat, e: nat)
    requires OpenTagLength(s, q) == Some(k)
    requires Text.IndexOfFrom(s, ProductClose, q + k) == Some(c) && e == c + 10
    ensures OpenTagLength(s[q..e], 0) == Some(k)
    ensures Text.OccursAt(s[q..e], ProductClose, c - q)
    ensures forall j :: 0 <= j < c - q ==> !Text.OccursAt(s[q..e], ProductClose, j)
  {
    var m := s[q..e];
    OpenTagInSlice(s, q, e, k);
    Text.OccursInSlice(s, q, e, ProductClose, c - q);
    CloseOnlyAtEnd(s, q, k, c, m);
  }

  /** The three parts of `IsProduct`, each established separately. */
  lemma ProductOfParts(m: string, k: nat, c: nat)
    requires OpenTagLength(m, 0) == Some(k)
    requires c + 10 == |m| && Text.OccursAt(m, ProductClose, c)
    requires forall j :: 0 <= j < c ==> !Text.OccursAt(m, ProductClose, j)
    ensures IsProduct(m)
  { }

  /** In a product, `indexOf("</PRODUCT>")` finds the closing tag at its end. */
  lemma ProductFirstClose(m: string)
    requires IsProduct(m)
    ensures Text.IndexOf(m, ProductClose) == Some(|m| - |ProductClose|)
  {
    Text.FirstOccurrence(m, ProductClose, |m| - |ProductClose|);
  }

  /** `</PRODUCT>` occurs in the matched text only at its end. */
  lemma CloseOnlyAtEnd(s: string, q: nat, k: nat, c: nat, m: string)
    requires OpenTagLength(s, q) == Some(k)
    requires Text.IndexOfFrom(s, ProductClose, q + k) == Some(c)
    requires m == s[q..c + 10]
    ensures forall j :: 0 <= j < c - q ==> !Text.OccursAt(m, ProductClose, j)
  {
    OpenTagShape(s, q);
    Text.OccursAtChar(s, ProductOpen, q, 1);
    forall j | 0 <= j < c - q
      ensures !Text.OccursAt(m, ProductClose, j)
    {
      NoCloseBefore(s, q, k, c, m, j);
    }
  }

  /**
    One position of `CloseOnlyAtEnd`: at the tag's `<` the next character
    is `P`, not `/`; inside the tag there is no `<`; between the tag and the
    first closing tag there is no closing tag.
   */
  lemma NoCloseBefore(s: string, q: nat, k: nat, c: nat, m: string, j: nat)
    requires q + k <= c && c + 10 <= |s| && 2 <= k
    requires s[q + 1] == 'P'
    requires forall i :: q < i < q + k ==> s[i] != '<'
    requires forall i :: q + k <= i < c ==> !Text.OccursAt(s, ProductClose, i)
    requires m == s[q..c + 10]
    requires j < c - q
    ensures !Text.OccursAt(m, ProductClose, j)
  {
    if j == 0 {
      assert m[1] == s[q + 1];
      Text.NotOccursAt(m, ProductClose, 0, 1);
    } else if j < k {
      assert m[j] == s[q + j];
      Text.NotOccursAt(m, ProductClose, j, 0);
    } else {
      Text.OccursInSlice(s, q, c + 10, ProductClose, j);
    }
  }

  /** The opening tag reads the same in a slice that starts with it. */
  lemma OpenTagInSlice(s: string, q: nat, e: nat, k: nat)
    requires OpenTagLength(s, q) == Some(k) && q + k <= e <= |s|
    ensures OpenTagLength(s[q..e], 0) == Some(k)
  {
    Text.OccursInSlice(s, q, e, ProductOpen, 0);
    Text.OccursInSlice(s, q, e, ">", 8);
    if k > 9 {
      var n := SpaceRun(s, q + 8);
      SpaceRunInSlice(s, q, e, 8, n);
      Text.OccursInSlice(s, q, e, ModeNew, 8 + n);
    }
  }

  /** A space run followed by a character of the slice is the same run in the slice. */
  lemma {:induction false} SpaceRunInSlice(s: string, q: nat, e: nat, a: nat, n: nat)
    requires q + a + n < e <= |s|
    requires SpaceRun(s, q + a) == n
    ensures SpaceRun(s[q..e], a) == n
    decreases n
  {
    assert s[q..e][a] == s[q + a];
    if n > 0 {
      SpaceRunInSlice(s, q, e, a + 1, n - 1);
    }
  }

  /** A product starts with `<` and ends with `>`, so `trim()` leaves it unchanged. */
  lemma ProductTrimmed(m: string)
    requires IsProduct(m)
    ensures Text.Trim(m) == m
  {
    Text.OccursAtChar(m, ProductOpen, 0, 0);
    Text.OccursAtChar(m, ProductClose, |m| - 10, 9);
    Text.TrimUnchanged(m);
  }

  // ---------------------------------------------------------------------------
  // Greedy packing
  // ---------------------------------------------------------------------------

  /** One flushed file: its 1-based index and the products appended to it, in order. */
  datatype Batch = Batch(index: nat, products: seq<string>)

  /**
    The loop's variables: the files written so far, the open file's
    products (`currentFileContent` is their `Terminated` text), their byte
    total `currentFileSize`, and `fileIndex`.
   */
  datatype PackState = PackState(written: seq<Batch>, open: seq<string>, size: int, index: nat)

  const InitialPack: PackState := PackState([], [], 0, 1)

  /** The flush at todolux-splitter.js:43-49: write the open file, whatever it holds, and start an empty one. */
  function Flush(st: PackState): PackState
  {
    PackState(st.written + [Batch(st.index, st.open)], [], 0, st.index + 1)
  }

  /** One product of the loop at todolux-splitter.js:41-53: flush when the product does not fit, then append it. */
  function PackStep(st: PackState, product: string, maxFileSize: int): PackState
  {
    var productSize := Utf8.ByteLength(product);
    var st1 := if st.size + productSize > maxFileSize then Flush(st) else st;
    st1.(open := st1.open + [product], size := st1.size + productSize)
  }

  /** The state after the loop has handled every product of `products`. */
  function PackLoop(products: seq<string>, maxFileSize: int): PackState
  {
    if |products| == 0 then InitialPack
    else PackStep(PackLoop(products[..|products| - 1], maxFileSize), products[|products| - 1], maxFileSize)
  }

  /** The files written by todolux-splitter.js:41-61: after the loop, the open file is written only if its content is not empty. */
  function Pack(products: seq<string>, maxFileSize: int): seq<Batch>
  {
    var st := PackLoop(products, maxFileSize);
    if Catalog.Terminated(st.open) != "" then st.written + [Batch(st.index, st.open)] else st.written
  }

  /** Total UTF-8 size of some products. */
  function SumBytes(products: seq<string>): nat
  {
    if |products| == 0 then 0
    else SumBytes(products[..|products| - 1]) + Utf8.ByteLength(products[|products| - 1])
  }

  /** The product lists of the batches, in write order. */
  function ProductLists(batches: seq<Batch>): (lists: seq<seq<string>>)
    ensures |lists| == |batches|
    ensures forall i :: 0 <= i < |batches| ==> lists[i] == batches[i].products
  {
    seq(|batches|, i requires 0 <= i < |batches| => batches[i].products)
  }

  lemma ProductListsSnoc(batches: seq<Batch>, b: Batch)
    ensures ProductLists(batches + [b]) == ProductLists(batches) + [b.products]
  {
  }

  /** Written files and the open file together hold exactly the products handled, in order. */
  ghost predicate Conserves(st: PackState, handled: seq<string>) {
    && Text.Flatten(ProductLists(st.written)) + st.open == handled
    && st.index == |st.written| + 1
    && forall i :: 0 <= i < |st.written| ==> st.written[i].index == i + 1
  }

  /** The accumulator is the open file's byte total, which exceeds the limit only for a lone product. */
  ghost predicate Bounded(st: PackState, maxFileSize: int) {
    && st.size == SumBytes(st.open)
    && (|st.open| >= 2 ==> st.size <= maxFileSize)
    && forall i :: 0 <= i < |st.written| ==>
         |st.written[i].products| >= 2 ==> SumBytes(st.written[i].products) <= maxFileSize
  }

  /**
    A file is closed only because the next product did not fit: its bytes
    plus the first product of the next file exceed the limit.
   */
  ghost predicate Greedy(st: PackState, maxFileSize: int) {
    && (forall i :: 1 <= i < |st.written| ==> ClosedFull(st.written, i, maxFileSize))
    && (|st.written| > 0 ==>
          |st.open| > 0
          && SumBytes(st.written[|st.written| - 1].products) + Utf8.ByteLength(st.open[0]) > maxFileSize)
  }

  /** File `i - 1` was closed because file `i`'s first product did not fit in it. */
  ghost predicate ClosedFull(w: seq<Batch>, i: int, maxFileSize: int)
    requires 1 <= i < |w|
  {
    |w[i].products| > 0 && SumBytes(w[i - 1].products) + Utf8.ByteLength(w[i].products[0]) > maxFileSize
  }

  /**
    Only the first file can be empty, and it is empty exactly when the first
    product alone exceeds the limit; the open file is empty only before any
    product is handled.
   */
  ghost predicate EmptyOnlyFirst(st: PackState, handled: seq<string>, maxFileSize: int) {
    && (|st.open| == 0 <==> |handled| == 0)
    && (forall i :: 1 <= i < |st.written| ==> |st.written[i].products| > 0)
    && (|st.written| > 0 && |st.written[0].products| == 0 <==>
          |handled| > 0 && Utf8.ByteLength(handled[0]) > maxFileSize)
  }

  lemma SumBytesSnoc(products: seq<string>, p: string)
    ensures SumBytes(products + [p]) == SumBytes(products) + Utf8.ByteLength(p)
  {
    assert (products + [p])[..|products|] == products;
  }

  lemma StepConserves(st: PackState, handled: seq<string>, p: string, maxFileSize: int)
    requires Conserves(st, handled)
    ensures Conserves(PackStep(st, p, maxFileSize), handled + [p])
  {
    if st.size + Utf8.ByteLength(p) > maxFileSize {
      ProductListsSnoc(st.written, Batch(st.index, st.open));
      Text.FlattenSnoc(ProductLists(st.written), st.open);
    } else {
      assert Text.Flatten(ProductLists(st.written)) + (st.open + [p])
          == Text.Flatten(ProductLists(st.written)) + st.open + [p];
    }
  }

  lemma FlushBounded(st: PackState, maxFileSize: int)
    requires Bounded(st, maxFileSize)
    ensures forall i :: 0 <= i < |Flush(st).written| ==>
      |Flush(st).written[i].products| >= 2 ==> SumBytes(Flush(st).written[i].products) <= maxFileSize
  {
    var w := Flush(st).written;
    forall i | 0 <= i < |w| && |w[i].products| >= 2
      ensures SumBytes(w[i].products) <= maxFileSize
    {
      if i < |st.written| {
        assert w[i] == st.written[i];
      }
    }
  }

  lemma StepBounded(st: PackState, p: string, maxFileSize: int)
    requires Bounded(st, maxFileSize)
    ensures Bounded(PackStep(st, p, maxFileSize), maxFileSize)
  {
    SumBytesSnoc(st.open, p);
    if st.size + Utf8.ByteLength(p) > maxFileSize {
      FlushBounded(st, maxFileSize);
      SumBytesSnoc([], p);
      assert [] + [p] == [p];
    }
  }

  lemma StepGreedy(st: PackState, p: string, maxFileSize: int)
    requires Greedy(st, maxFileSize) && Bounded(st, maxFileSize)
    ensures Greedy(PackStep(st, p, maxFileSize), maxFileSize)
  {
    if st.size + Utf8.ByteLength(p) > maxFileSize {
      FlushGreedy(st, p, maxFileSize);
    } else {
      var st2 := PackStep(st, p, maxFileSize);
      assert st2.written == st.written && st2.open == st.open + [p];
      assert |st.open| > 0 ==> st2.open[0] == st.open[0];
    }
  }

  /** The file closed by a flush is followed by the product that did not fit. */
  lemma FlushGreedy(st: PackState, p: string, maxFileSize: int)
    requires Greedy(st, maxFileSize) && st.size == SumBytes(st.open)
    requires st.size + Utf8.ByteLength(p) > maxFileSize
    ensures Greedy(PackStep(st, p, maxFileSize), maxFileSize)
  {
    FlushStep(st, p, maxFileSize);
    FlushedGreedy(st.written, Batch(st.index, st.open), p, Utf8.ByteLength(p), st.index + 1, maxFileSize);
  }

  /** The state a flush leaves behind is greedy when the closed batch could not take `p`. */
  lemma FlushedGreedy(written: seq<Batch>, b: Batch, p: string, size: int, index: nat, maxFileSize: int)
    requires forall i :: 1 <= i < |written| ==> ClosedFull(written, i, maxFileSize)
    requires |written| > 0 ==>
      |b.products| > 0
      && SumBytes(written[|written| - 1].products) + Utf8.ByteLength(b.products[0]) > maxFileSize
    requires SumBytes(b.products) + Utf8.ByteLength(p) > maxFileSize
    ensures Greedy(PackState(written + [b], [p], size, index), maxFileSize)
  {
    ClosedGreedy(written, b, maxFileSize);
    var w := written + [b];
    assert w[|w| - 1] == b;
  }

  /** A product that does not fit closes the open file and starts the next one. */
  lemma FlushStep(st: PackState, p: string, maxFileSize: int)
    requires st.size + Utf8.ByteLength(p) > maxFileSize
    ensures PackStep(st, p, maxFileSize)
      == PackState(st.written + [Batch(st.index, st.open)], [p], Utf8.ByteLength(p), st.index + 1)
  { }

  /** Closing a batch keeps every batch's successor starting with a product that did not fit. */
  lemma ClosedGreedy(written: seq<Batch>, b: Batch, maxFileSize: int)
    requires forall i :: 1 <= i < |written| ==> ClosedFull(written, i, maxFileSize)
    requires |written| > 0 ==>
      |b.products| > 0
      && SumBytes(written[|written| - 1].products) + Utf8.ByteLength(b.products[0]) > maxFileSize
    ensures forall i :: 1 <= i < |written + [b]| ==> ClosedFull(written + [b], i, maxFileSize)
  {
    var w := written + [b];
    forall i | 1 <= i < |w|
      ensures ClosedFull(w, i, maxFileSize)
    {
      assert w[i - 1] == written[i - 1];
      if i < |written| {
        assert w[i] == written[i];
        assert ClosedFull(written, i, maxFileSize);
      }
    }
  }

  /** A first batch with products puts them first in the concatenation. */
  lemma FirstBatchFirst(batches: seq<Batch>)
    ensures |batches| > 0 ==> |Text.Flatten(ProductLists(batches))| >= |batches[0].products|
  {
    if |batches| > 0 {
      assert ProductLists(batches)[0] == batches[0].products;
    }
  }

  lemma StepEmptyOnlyFirst(st: PackState, handled: seq<string>, p: string, maxFileSize: int)
    requires EmptyOnlyFirst(st, handled, maxFileSize)
    requires Conserves(st, handled) && Bounded(st, maxFileSize)
    ensures EmptyOnlyFirst(PackStep(st, p, maxFileSize), handled + [p], maxFileSize)
  {
    var st2 := PackStep(st, p, maxFileSize);
    FirstBatchFirst(st.written);
    assert |handled| == 0 ==> st.written == [];
    assert (handled + [p])[0] == if |handled| > 0 then handled[0] else p;
    if st.size + Utf8.ByteLength(p) > maxFileSize {
      assert st2.written == st.written + [Batch(st.index, st.open)];
      assert forall i :: 1 <= i < |st2.written| ==> |st2.written[i].products| > 0;
    }
  }

  lemma {:induction false} PackLoopConserves(products: seq<string>, maxFileSize: int)
    ensures Conserves(PackLoop(products, maxFileSize), products)
  {
    if |products| > 0 {
      var before := products[..|products| - 1];
      PackLoopConserves(before, maxFileSize);
      StepConserves(PackLoop(before, maxFileSize), before, products[|products| - 1], maxFileSize);
      assert before + [products[|products| - 1]] == products;
    }
  }

  lemma {:induction false} PackLoopBounded(products: seq<string>, maxFileSize: int)
    ensures Bounded(PackLoop(products, maxFileSize), maxFileSize)
  {
    if |products| > 0 {
      var before := products[..|products| - 1];
      PackLoopBounded(before, maxFileSize);
      StepBounded(PackLoop(before, maxFileSize), products[|products| - 1], maxFileSize);
    }
  }

  lemma {:induction false} PackLoopGreedy(products: seq<string>, maxFileSize: int)
    ensures Greedy(PackLoop(products, maxFileSize), maxFileSize)
  {
    if |products| > 0 {
      var before := products[..|products| - 1];
      PackLoopGreedy(before, maxFileSize);
      PackLoopBounded(before, maxFileSize);
      StepGreedy(PackLoop(before, maxFileSize), products[|products| - 1], maxFileSize);
    }
  }

  lemma {:induction false} PackLoopEmptyOnlyFirst(products: seq<string>, maxFileSize: int)
    ensures EmptyOnlyFirst(PackLoop(products, maxFileSize), products, maxFileSize)
  {
    if |products| > 0 {
      var before := products[..|products| - 1];
      PackLoopEmptyOnlyFirst(before, maxFileSize);
      PackLoopConserves(before, maxFileSize);
      PackLoopBounded(before, maxFileSize);
      StepEmptyOnlyFirst(PackLoop(before, maxFileSize), before, products[|products| - 1], maxFileSize);
      assert before + [products[|products| - 1]] == products;
    }
  }

  /** The final write happens exactly when the open file holds a product. */
  lemma PackShape(products: seq<string>, maxFileSize: int)
    ensures var st := PackLoop(products, maxFileSize);
      Pack(products, maxFileSize) == if st.open != [] then st.written + [Batch(st.index, st.open)] else st.written
  {
    Catalog.TerminatedEmpty(PackLoop(products, maxFileSize).open);
  }

  /** Every product ends up in exactly one file: concatenating the files' product lists gives them back. */
  lemma PackConserves(products: seq<string>, maxFileSize: int)
    ensures Text.Flatten(ProductLists(Pack(products, maxFileSize))) == products
    ensures forall i :: 0 <= i < |Pack(products, maxFileSize)| ==> Pack(products, maxFileSize)[i].index == i + 1
  {
    var st := PackLoop(products, maxFileSize);
    PackLoopConserves(products, maxFileSize);
    PackShape(products, maxFileSize);
    if st.open != [] {
      ProductListsSnoc(st.written, Batch(st.index, st.open));
      Text.FlattenSnoc(ProductLists(st.written), st.open);
    } else {
      assert Text.Flatten(ProductLists(st.written)) + [] == Text.Flatten(ProductLists(st.written));
    }
  }

  /** A file holding two or more products stays within the limit (header, footer and newlines not counted). */
  lemma PackBounded(products: seq<string>, maxFileSize: int)
    ensures forall i :: 0 <= i < |Pack(products, maxFileSize)| ==>
      |Pack(products, maxFileSize)[i].products| >= 2 ==>
        SumBytes(Pack(products, maxFileSize)[i].products) <= maxFileSize
  {
    PackLoopBounded(products, maxFileSize);
    PackShape(products, maxFileSize);
  }

  /** Each file but the last was closed only because the next file's first product did not fit in it. */
  lemma PackGreedy(products: seq<string>, maxFileSize: int)
    ensures var batches := Pack(products, maxFileSize);
      forall i :: 1 <= i < |batches| ==>
        |batches[i].products| > 0
        && SumBytes(batches[i - 1].products) + Utf8.ByteLength(batches[i].products[0]) > maxFileSize
  {
    var st := PackLoop(products, maxFileSize);
    PackLoopGreedy(products, maxFileSize);
    PackShape(products, maxFileSize);
    var batches := Pack(products, maxFileSize);
    if st.open != [] {
      forall i | 1 <= i < |batches|
        ensures |batches[i].products| > 0
        ensures SumBytes(batches[i - 1].products) + Utf8.ByteLength(batches[i].products[0]) > maxFileSize
      {
        if i < |st.written| {
          assert batches[i - 1] == st.written[i - 1] && batches[i] == st.written[i];
          assert ClosedFull(st.written, i, maxFileSize);
        }
      }
    }
  }

  /**
    No product means no file. Otherwise only the first file can be empty,
    and it is empty exactly when the first product alone exceeds the limit:
    the flush test runs before anything has been appended.
   */
  lemma PackEmptyFiles(products: seq<string>, maxFileSize: int)
    ensures |Pack(products, maxFileSize)| == 0 <==> |products| == 0
    ensures forall i :: 1 <= i < |Pack(products, maxFileSize)| ==> |Pack(products, maxFileSize)[i].products| > 0
    ensures |Pack(products, maxFileSize)| > 0 && |Pack(products, maxFileSize)[0].products| == 0 <==>
      |products| > 0 && Utf8.ByteLength(products[0]) > maxFileSize
  {
    PackLoopEmptyOnlyFirst(products, maxFileSize);
    PackShape(products, maxFileSize);
  }

  /** Three 40 MiB products under a 90 MiB limit: the first two share a file, the third gets its own. */
  lemma ThreeFortyMiBProducts(p1: string, p2: string, p3: string)
    requires Utf8.ByteLength(p1) == 40 * Catalog.MiB
    requires Utf8.ByteLength(p2) == 40 * Catalog.MiB
    requires Utf8.ByteLength(p3) == 40 * Catalog.MiB
    ensures Pack([p1, p2, p3], 90 * Catalog.MiB) == [Batch(1, [p1, p2]), Batch(2, [p3])]
  {
    var m := 90 * Catalog.MiB;
    assert [p1, p2, p3][..2] == [p1, p2];
    assert [p1, p2][..1] == [p1];
    assert [p1][..0] == [];
    assert PackLoop([p1], m) == PackState([], [p1], 40 * Catalog.MiB, 1);
    assert PackLoop([p1, p2], m) == PackState([], [p1, p2], 80 * Catalog.MiB, 1);
    var st := PackLoop([p1, p2, p3], m);
    assert st == PackState([Batch(1, [p1, p2])], [p3], 40 * Catalog.MiB, 2);
    Catalog.TerminatedEmpty(st.open);
  }

  /**
    A first product larger than the limit is preceded by a file with no
    product: the flush test sees `0 + productSize > maxFileSize`.
   */
  lemma OversizedFirstProduct(p: string, maxFileSize: int)
    requires Utf8.ByteLength(p) > maxFileSize
    ensures Pack([p], maxFileSize) == [Batch(1, []), Batch(2, [p])]
  {
    assert [p][..0] == [];
    assert PackLoop([], maxFileSize) == InitialPack;
    var st := PackLoop([p], maxFileSize);
    assert st == PackState([Batch(1, [])], [p], Utf8.ByteLength(p), 2);
    Catalog.TerminatedEmpty(st.open);
  }

  // ---------------------------------------------------------------------------
  // The whole operation
  // ---------------------------------------------------------------------------

  /** Content of one output file: header, newline, each product with a newline, footer. */
  function FileContent(commonTags: string, products: seq<string>): string
  {
    commonTags + "\n" + Catalog.Terminated(products) + Catalog.Footer
  }

  function Render(commonTags: string, prefix: string, batches: seq<Batch>): (files: seq<Catalog.OutputFile>)
    ensures |files| == |batches|
    ensures forall i :: 0 <= i < |batches| ==>
      files[i] == Catalog.OutputFile(Catalog.FileName(prefix, batches[i].index),
                                     FileContent(commonTags, batches[i].products))
  {
    seq(|batches|, i requires 0 <= i < |batches| =>
      Catalog.OutputFile(Catalog.FileName(prefix, batches[i].index), FileContent(commonTags, batches[i].products)))
  }

  /** `commonTags`: `substring(0, indexOf("<T_NEW_CATALOG>") + 15)`. */
  function CommonTags(content: string): string
  {
    Text.JsSubstring(content, 0, Text.JsIndexOf(content, Catalog.OpenCatalog) + |Catalog.OpenCatalog|)
  }

  /** `productsSection`: from the first `<T_NEW_CATALOG>` through the end of the first `</T_NEW_CATALOG>`. */
  function ProductsSection(content: string): string
  {
    Text.JsSubstring(content, Text.JsIndexOf(content, Catalog.OpenCatalog),
                     Text.JsIndexOf(content, Catalog.CloseCatalog) + |Catalog.CloseCatalog|)
  }

  /** `products.map(p => p.trim())`. */
  function TrimAll(products: seq<string>): (r: seq<string>)
    ensures |r| == |products|
    ensures forall i :: 0 <= i < |r| ==> r[i] == Text.Trim(products[i])
  {
    seq(|products|, i requires 0 <= i < |products| => Text.Trim(products[i]))
  }

  /** `splitXMLFile(xmlFile, maxFileSize, outputFileName)` over the file's decoded `content`. */
  function SplitXmlFile(xmlFile: string, content: string, maxFileSize: int, outputFileName: string)
    : Result<seq<Catalog.OutputFile>, SplitError>
  {
    var products :- ExtractProducts(ProductsSection(content));
    var batches := Pack(TrimAll(products), maxFileSize);
    Success(Render(CommonTags(content), Catalog.NamePrefix(xmlFile, outputFileName), batches))
  }

  /** When the input holds `<T_NEW_CATALOG>`, the common tags are its header. */
  lemma CommonTagsIsHeader(content: string)
    requires Text.Contains(content, Catalog.OpenCatalog)
    ensures Catalog.HeaderOf(content) == Some(CommonTags(content))
  {
  }

  /** Trimming changes no extracted product. */
  lemma TrimKeepsProducts(section: string)
    requires ExtractProducts(section).Success?
    ensures TrimAll(ExtractProducts(section).value) == ExtractProducts(section).value
  {
    var ps := ExtractProducts(section).value;
    forall i | 0 <= i < |ps|
      ensures Text.Trim(ps[i]) == ps[i]
    {
      ProductTrimmed(ps[i]);
    }
  }

  /**
    On success every file is the common tags, a newline, some products each
    followed by a newline, and the footer; files are named `${prefix}-1.xml`,
    `${prefix}-2.xml`, ... with no gap; and the files' products, in order,
    are exactly the products the regular expression extracts.
   */
  lemma SplitXmlFileShape(xmlFile: string, content: string, maxFileSize: int, outputFileName: string)
    requires SplitXmlFile(xmlFile, content, maxFileSize, outputFileName).Success?
    ensures var files := SplitXmlFile(xmlFile, content, maxFileSize, outputFileName).value;
      var batches := Pack(ExtractProducts(ProductsSection(content)).value, maxFileSize);
      && Catalog.NumberedFrom1(files, Catalog.NamePrefix(xmlFile, outputFileName))
      && |files| == |batches|
      && (forall i :: 0 <= i < |files| ==> files[i].content == FileContent(CommonTags(content), batches[i].products))
      && Text.Flatten(ProductLists(batches)) == ExtractProducts(ProductsSection(content)).value
  {
    var section := ProductsSection(content);
    var products := ExtractProducts(section).value;
    var batches := Pack(products, maxFileSize);
    TrimKeepsProducts(section);
    SplitXmlFileIsRender(xmlFile, content, maxFileSize, outputFileName, products);
    PackConserves(products, maxFileSize);
    RenderShape(CommonTags(content), Catalog.NamePrefix(xmlFile, outputFileName), batches);
  }

  /** On success the files are the rendering of the packed, trimmed products. */
  lemma SplitXmlFileIsRender(xmlFile: string, content: string, maxFileSize: int, outputFileName: string,
                             products: seq<string>)
    requires ExtractProducts(ProductsSection(content)) == Success(products)
    requires TrimAll(products) == products
    ensures SplitXmlFile(xmlFile, content, maxFileSize, outputFileName)
      == Success(Render(CommonTags(content), Catalog.NamePrefix(xmlFile, outputFileName), Pack(products, maxFileSize)))
  { }

  /** Batches numbered from 1 render to files named from 1, each holding its batch. */
  lemma RenderShape(commonTags: string, prefix: string, batches: seq<Batch>)
    requires forall i :: 0 <= i < |batches| ==> batches[i].index == i + 1
    ensures var files := Render(commonTags, prefix, batches);
      && Catalog.NumberedFrom1(files, prefix)
      && |files| == |batches|
      && (forall i :: 0 <= i < |files| ==> files[i].content == FileContent(commonTags, batches[i].products))
  { }
}

=== FILE: text.dfy ===
/**
  The JavaScript string operations the splitters rely on: `indexOf`,
  `includes`, `startsWith`, `substring`, `trim`, the `\s` character class,
  and concatenation of a list of pieces.
 */
module Text {
  import opened Wrappers

  /** True when `pat` occurs in `s` starting at position `i`. */
  predicate OccursAt(s: string, pat: string, i: int) {
    0 <= i && i + |pat| <= |s| && forall j :: 0 <= j < |pat| ==> s[i + j] == pat[j]
  }

  /** `s.startsWith(pat)`. */
  predicate StartsWith(s: string, pat: string) {
    OccursAt(s, pat, 0)
  }

  /** `s.endsWith(pat)`. */
  predicate EndsWith(s: string, pat: string) {
    OccursAt(s, pat, |s| - |pat|)
  }

  /** A text ending with `pat` is what precedes it followed by `pat`. */
  lemma EndsWithSplit(s: string, pat: string)
    requires EndsWith(s, pat)
    ensures |pat| <= |s| && s[..|s| - |pat|] + pat == s
  {
    var k := |s| - |pat|;
    assert s == s[..k] + s[k..];
  }

  /** A concatenation ends with its second part and starts with its first. */
  lemma AppendParts(a: string, b: string)
    ensures EndsWith(a + b, b) && (a + b)[..|a|] == a
  {
    assert (a + b)[|a|..] == b;
  }

  /** `s.indexOf(pat, from)`, with `None` for JavaScript's `-1`. */
  function IndexOfFrom(s: string, pat: string, from: nat): (r: Option<nat>)
    ensures r.Some? ==> from <= r.value && OccursAt(s, pat, r.value)
    ensures r.Some? ==> forall j :: from <= j < r.value ==> !OccursAt(s, pat, j)
    ensures r.None? ==> forall j :: from <= j ==> !OccursAt(s, pat, j)
    decreases |s| - from
  {
    if from + |pat| > |s| then None
    else if s[from..from + |pat|] == pat then Some(from)
    else IndexOfFrom(s, pat, from + 1)
  }

  /** `s.indexOf(pat)`. */
  function IndexOf(s: string, pat: string): Option<nat> {
    IndexOfFrom(s, pat, 0)
  }

  /** `s.indexOf(pat)` as the number JavaScript returns. */
  function JsIndexOf(s: string, pat: string): (r: int)
    ensures r == -1 <==> forall j :: !OccursAt(s, pat, j)
    ensures r != -1 ==> OccursAt(s, pat, r)
    ensures r != -1 ==> forall j :: 0 <= j < r ==> !OccursAt(s, pat, j)
  {
    match IndexOf(s, pat)
    case Some(i) => i
    case None => -1
  }

  /** `s.includes(pat)`. */
  predicate Contains(s: string, pat: string) {
    IndexOf(s, pat).Some?
  }

  /** `includes` holds exactly when some occurrence exists. */
  lemma ContainsIff(s: string, pat: string)
    ensures Contains(s, pat) <==> exists j :: OccursAt(s, pat, j)
  {
    if exists j :: OccursAt(s, pat, j) {
      var j :| OccursAt(s, pat, j);
      assert IndexOfFrom(s, pat, 0).Some?;
    }
  }

  /** An occurrence with none before it is the one `indexOf` returns. */
  lemma FirstOccurrence(s: string, pat: string, i: nat)
    requires OccursAt(s, pat, i)
    requires forall j :: 0 <= j < i ==> !OccursAt(s, pat, j)
    ensures IndexOf(s, pat) == Some(i)
  {
    assert IndexOf(s, pat).Some?;
  }

  /** The search from `from` finds `i` when `pat` occurs there and nowhere between. */
  lemma FirstOccurrenceFrom(s: string, pat: string, from: nat, i: nat)
    requires from <= i && OccursAt(s, pat, i)
    requires forall j :: from <= j < i ==> !OccursAt(s, pat, j)
    ensures IndexOfFrom(s, pat, from) == Some(i)
  {
    assert IndexOfFrom(s, pat, from).Some?;
  }

  /** Occurrences lying inside `a` are unaffected by appending `b`. */
  lemma OccursAtAppend(a: string, b: string, pat: string, j: int)
    requires 0 <= j && j + |pat| <= |a|
    ensures OccursAt(a + b, pat, j) <==> OccursAt(a, pat, j)
  {
    forall k | 0 <= k < |a| ensures (a + b)[k] == a[k] { }
  }

  /** An occurrence inside a slice is an occurrence in the whole text, shifted by the slice's start. */
  lemma OccursInSlice(s: string, q: nat, e: nat, pat: string, j: nat)
    requires q <= e <= |s| && j + |pat| <= e - q
    ensures OccursAt(s[q..e], pat, j) <==> OccursAt(s, pat, q + j)
  {
    forall k | 0 <= k < e - q ensures s[q..e][k] == s[q + k] { }
  }

  /** An occurrence fixes each character it covers. */
  lemma OccursAtChar(s: string, pat: string, i: int, x: nat)
    requires OccursAt(s, pat, i) && x < |pat|
    ensures s[i + x] == pat[x]
  {
  }

  /** One mismatching character rules an occurrence out. */
  lemma NotOccursAt(s: string, pat: string, i: int, x: nat)
    requires x < |pat| && 0 <= i + x < |s| && s[i + x] != pat[x]
    ensures !OccursAt(s, pat, i)
  {
    if OccursAt(s, pat, i) {
      OccursAtChar(s, pat, i, x);
    }
  }

  /** Once `indexOf` finds `pat` in `a`, appending more text never changes the answer. */
  lemma {:induction false} IndexOfAppend(a: string, b: string, pat: string)
    requires IndexOf(a, pat).Some?
    ensures IndexOf(a + b, pat) == IndexOf(a, pat)
  {
    var i := IndexOf(a, pat).value;
    OccursAtAppend(a, b, pat, i);
    forall j | 0 <= j < i
      ensures !OccursAt(a + b, pat, j)
    {
      OccursAtAppend(a, b, pat, j);
    }
    FirstOccurrence(a + b, pat, i);
  }

  /** Clamps an index into `[0, n]`, as `substring` does with its arguments. */
  function Clamp(x: int, n: nat): (r: nat)
    ensures r <= n
    ensures 0 <= x <= n ==> r == x
    ensures x < 0 ==> r == 0
    ensures x > n ==> r == n
  {
    if x < 0 then 0 else if x > n then n else x
  }

  /** `s.substring(a, b)`: both ends clamped, then swapped when out of order. */
  function JsSubstring(s: string, a: int, b: int): string
  {
    var lo := Clamp(a, |s|);
    var hi := Clamp(b, |s|);
    if lo <= hi then s[lo..hi] else s[hi..lo]
  }

  /** `substring` takes the slice when the bounds are in order, and swaps them otherwise. */
  lemma SubstringSlice(s: string, a: int, b: int)
    ensures 0 <= a <= b <= |s| ==> JsSubstring(s, a, b) == s[a..b]
    ensures 0 <= b <= a <= |s| ==> JsSubstring(s, a, b) == s[b..a]
    ensures JsSubstring(s, a, b) == JsSubstring(s, b, a)
  {
  }

  /**
    Characters matched by `\s` and removed by `trim()`: the ECMAScript
    WhiteSpace and LineTerminator productions.
   */
  predicate IsJsSpace(c: char) {
    c == '\t' || c == '\n' || c == '\U{000B}' || c == '\U{000C}' || c == '\r' || c == ' '
    || c == '\U{00A0}' || c == '\U{1680}' || ('\U{2000}' <= c <= '\U{200A}')
    || c == '\U{2028}' || c == '\U{2029}' || c == '\U{202F}' || c == '\U{205F}'
    || c == '\U{3000}' || c == '\U{FEFF}'
  }

  /** `s.trimStart()`: the suffix left after dropping leading whitespace. */
  function TrimStart(s: string): (r: string)
    ensures |r| <= |s| && r == s[|s| - |r|..]
    ensures forall i :: 0 <= i < |s| - |r| ==> IsJsSpace(s[i])
    ensures |r| > 0 ==> !IsJsSpace(r[0])
  {
    if |s| > 0 && IsJsSpace(s[0]) then TrimStart(s[1..]) else s
  }

  /** Text that does not start with whitespace is left alone by `trimStart`. */
  lemma TrimStartNoSpace(s: string)
    requires |s| > 0 && !IsJsSpace(s[0])
    ensures TrimStart(s) == s
  {
  }

  /** `s.trimEnd()`: the prefix left after dropping trailing whitespace. */
  function TrimEnd(s: string): (r: string)
    ensures |r| <= |s| && r == s[..|r|]
    ensures forall i :: |r| <= i < |s| ==> IsJsSpace(s[i])
    ensures |r| > 0 ==> !IsJsSpace(r[|r| - 1])
  {
    if |s| > 0 && IsJsSpace(s[|s| - 1]) then TrimEnd(s[..|s| - 1]) else s
  }

  /** `s.trim()`. */
  function Trim(s: string): string {
    TrimEnd(TrimStart(s))
  }

  /** Text that starts and ends with a non-space character is left unchanged by `trim()`. */
  lemma TrimUnchanged(s: string)
    requires |s| > 0 && !IsJsSpace(s[0]) && !IsJsSpace(s[|s| - 1])
    ensures Trim(s) == s
  {
    assert TrimStart(s) == s;
  }

  /** Concatenation of a list of pieces, in order. */
  function Flatten<T>(xss: seq<seq<T>>): seq<T>
  {
    if |xss| == 0 then [] else xss[0] + Flatten(xss[1..])
  }

  /** Flattening distributes over concatenation of the lists. */
  lemma {:induction false} FlattenAppend<T>(xs: seq<seq<T>>, ys: seq<seq<T>>)
    ensures Flatten(xs + ys) == Flatten(xs) + Flatten(ys)
  {
    if |xs| == 0 {
      assert xs + ys == ys;
    } else {
      assert (xs + ys)[1..] == xs[1..] + ys;
      FlattenAppend(xs[1..], ys);
    }
  }

  /** Flattening one more piece appends it. */
  lemma FlattenSnoc<T>(xs: seq<seq<T>>, x: seq<T>)
    ensures Flatten(xs + [x]) == Flatten(xs) + x
  {
    FlattenAppend(xs, [x]);
    assert Flatten([x]) == x + Flatten([x][1..]);
  }
}

=== FILE: utf8.dfy ===
/**
  UTF-8 byte length of a string, as Node's `Buffer.byteLength(s, "utf8")`
  computes it, following section 3 of RFC 3629. A string is a sequence of
  Unicode scalar values; each one occupies one to four bytes.
 */
module Utf8 {

  newtype byte = x: int | 0 <= x < 256

  /** Number of octets section 3 of RFC 3629 assigns to one code point. */
  function Width(c: char): (w: nat)
    ensures 1 <= w <= 4
  {
    if c as int < 0x80 then 1
    else if c as int < 0x800 then 2
    else if c as int < 0x10000 then 3
    else 4
  }

  /** `Buffer.byteLength(s, "utf8")`: the sum of the code points' widths. */
  function ByteLength(s: string): (n: nat)
    ensures |s| <= n <= 4 * |s|
  {
    if |s| == 0 then 0 else Width(s[0]) + ByteLength(s[1..])
  }

  /** The octet sequence of one code point, per the table in section 3 of RFC 3629. */
  function EncodeChar(c: char): (bs: seq<byte>)
    ensures |bs| == Width(c)
    ensures forall i :: 1 <= i < |bs| ==> 0x80 <= bs[i] < 0xC0
  {
    var v := c as int;
    if v < 0x80 then [v as byte]
    else if v < 0x800 then [(0xC0 + v / 64) as byte, (0x80 + v % 64) as byte]
    else if v < 0x10000 then
      [(0xE0 + v / 4096) as byte, (0x80 + (v / 64) % 64) as byte, (0x80 + v % 64) as byte]
    else
      [(0xF0 + v / 262144) as byte, (0x80 + (v / 4096) % 64) as byte,
       (0x80 + (v / 64) % 64) as byte, (0x80 + v % 64) as byte]
  }

  /** The UTF-8 encoding of a whole string. */
  function Encode(s: string): seq<byte>
  {
    if |s| == 0 then [] else EncodeChar(s[0]) + Encode(s[1..])
  }

  /** Sequence length announced by a lead octet; `0` for a continuation or invalid octet. */
  function LeadWidth(b: byte): nat
  {
    if b < 0x80 then 1
    else if b < 0xC0 then 0
    else if b < 0xE0 then 2
    else if b < 0xF0 then 3
    else if b < 0xF8 then 4
    else 0
  }

  /** Code point carried by a well-formed sequence whose first octet announces its length. */
  function DecodeChar(bs: seq<byte>): int
    requires 1 <= |bs| <= 4
  {
    if |bs| == 1 then bs[0] as int
    else if |bs| == 2 then (bs[0] as int - 0xC0) * 64 + (bs[1] as int - 0x80)
    else if |bs| == 3 then
      (bs[0] as int - 0xE0) * 4096 + (bs[1] as int - 0x80) * 64 + (bs[2] as int - 0x80)
    else
      (bs[0] as int - 0xF0) * 262144 + (bs[1] as int - 0x80) * 4096
        + (bs[2] as int - 0x80) * 64 + (bs[3] as int - 0x80)
  }

  /** The lead octet of a code point's encoding announces exactly its width. */
  lemma LeadOctetAnnouncesWidth(c: char)
    ensures LeadWidth(EncodeChar(c)[0]) == Width(c)
  {
  }

  /** Decoding the octets of one code point gives that code point back. */
  lemma DecodeEncodeChar(c: char)
    ensures DecodeChar(EncodeChar(c)) == c as int
  {
    var v := c as int;
    if v < 0x80 {
    } else if v < 0x800 {
      assert DecodeChar(EncodeChar(c)) == (v / 64) * 64 + v % 64;
    } else if v < 0x10000 {
      SixBitSplit(v);
      assert DecodeChar(EncodeChar(c)) == (v / 4096) * 4096 + ((v / 64) % 64) * 64 + v % 64;
    } else {
      SixBitSplit(v);
      SixBitSplit(v / 64);
      assert v / 262144 == (v / 64) / 4096;
      assert DecodeChar(EncodeChar(c))
          == (v / 262144) * 262144 + ((v / 4096) % 64) * 4096 + ((v / 64) % 64) * 64 + v % 64;
    }
  }

  /** Splitting off two six-bit groups recovers the value. */
  lemma SixBitSplit(v: nat)
    ensures (v / 4096) * 4096 + ((v / 64) % 64) * 64 + v % 64 == v
    ensures v / 4096 == (v / 64) / 64
  {
    var q := v / 64;
    assert v == q * 64 + v % 64;
    assert q == (q / 64) * 64 + q % 64;
  }

  /** The byte length is the length of the actual UTF-8 encoding. */
  lemma {:induction false} ByteLengthIsEncodedLength(s: string)
    ensures |Encode(s)| == ByteLength(s)
  {
    if |s| > 0 {
      ByteLengthIsEncodedLength(s[1..]);
    }
  }

  /** Byte length is additive over concatenation. */
  lemma {:induction false} ByteLengthAppend(a: string, b: string)
    ensures ByteLength(a + b) == ByteLength(a) + ByteLength(b)
  {
    if |a| > 0 {
      assert (a + b)[1..] == a[1..] + b;
      ByteLengthAppend(a[1..], b);
    } else {
      assert a + b == b;
    }
  }

  /** Encoding is a homomorphism from concatenation to concatenation. */
  lemma {:induction false} EncodeAppend(a: string, b: string)
    ensures Encode(a + b) == Encode(a) + Encode(b)
  {
    if |a| > 0 {
      assert (a + b)[1..] == a[1..] + b;
      EncodeAppend(a[1..], b);
    } else {
      assert a + b == b;
    }
  }

  /** Text made only of ASCII characters has one byte per character. */
  lemma {:induction false} AsciiByteLength(s: string)
    requires forall i :: 0 <= i < |s| ==> s[i] as int < 0x80
    ensures ByteLength(s) == |s|
  {
    if |s| > 0 {
      AsciiByteLength(s[1..]);
    }
  }
}

=== FILE: wrappers.dfy ===
/** Failure-compatible wrappers used for the splitters' error paths. */
module Wrappers {

  /** A value that may be absent (JavaScript's `-1`, `NaN` or `null` results). */
  datatype Option<+T> = None | Some(value: T)

  /** Either a value or the error the splitter raises instead. */
  datatype Result<+R, +E> = Success(value: R) | Failure(error: E) {

    predicate IsFailure() {
      Failure?
    }

    function PropagateFailure<U>(): Result<U, E>
      requires Failure?
    {
      Failure(error)
    }

    function Extract(): R
      requires Success?
    {
      value
    }
  }
}
